=== FILE: README.md ===
# Book review query and reporting core, in Dafny

This project models the book-review core of `app.py`, a personal reading-log
application (a Streamlit page over an SQLite database), and proves properties
of the model. The parts modelled are these:

- **Validator.** `validate_book_review` checks the five fields of the review
  form independently. It collects one Korean message per failing field, in
  field order.
- **Query builder.** `get_book_reviews` inner-joins reviews with their genre
  and adds the optional filters as `AND` clauses: genre, date range, and a
  case-insensitive title/author search. It then applies one of four
  `ORDER BY` keys.
- **Pagination.** The review list is shown ten to a page.
- **Aggregator.** It computes:
  - the review count and the mean over rated reviews only;
  - the latest read date;
  - the per-genre count and average table, ordered by count descending;
  - monthly reading buckets and the count for the current month;
  - the most-read genre. The dashboard computes it as the pandas mode, while
    the analysis report takes the first row of its genre table.
- **Text helpers.** These are:
  - `s[:k] + '...'` truncation for display and export;
  - the Markdown export's content preview;
  - the rule-based sentiment verdict;
  - frequency-based keyword extraction.

Modules follow those parts:

| module | file | what it holds |
|---|---|---|
| `Wrappers` | `wrappers.dfy` | `Option` |
| `Text` | `text.dfy` | Python `strip`/`split`, `in`, ASCII lower-casing, string order, truncation |
| `Sorting` | `sorting.dfy` | a sort by any total preorder, used for every `ORDER BY` and `sorted` |
| `Records` | `records.dfy` | dates, genres, reviews, and the review–genre inner join |
| `Validation` | `validation.dfy` | `validate_book_review` |
| `Query` | `query.dfy` | `get_book_reviews` |
| `Pagination` | `pagination.dfy` | the page slice |
| `Stats` | `stats.dfy` | count, mean, latest date, monthly buckets |
| `GenreStats` | `genres.dfy` | the genre table, the mode, and the report's pick |
| `Reports` | `reports.dfy` | the dashboard metrics and the report header |
| `Sentiment` | `sentiment.dfy` | `analyze_sentiment` |
| `Keywords` | `keywords.dfy` | `extract_keywords` |

Modelling choices:

- **Today's date** is a parameter wherever the source reads the clock
  (`datetime.now()`).
- **Dates** are (year, month, day) triples compared lexicographically. This is
  the order SQLite gives the ISO `YYYY-MM-DD` strings it stores.
- **Strings** are sequences of code points. String order is lexicographic by
  code point, which is both Python's `str` order and SQLite's `BINARY`
  collation.
- **A missing rating** is `None`. Missing averages are `None` rather than
  `nan`.
- **`ORDER BY` ties.** `ORDER BY` names a single key, so SQL leaves the order
  of ties unspecified. For each query the model states what any admissible
  answer is: the filtered rows in any order that is sorted by the key. It then
  builds one answer with an insertion sort and proves that answer admissible.

## Model

| member | source | states |
|---|---|---|
| `Validation.Validate` | app.py:250-271 | no message at all exactly when all five field rules hold; each message is present exactly when its own rule fails; a missing date and a future date are told apart; the messages come in field order, at most one per field |
| `Validation.ViolationCount` | app.py:250-271 | the number of messages equals the number of failing fields (one per field, none repeated) |
| `Validation.DateReportedOnce` | app.py:260-263 | the date rule never reports both "missing" and "in the future", and it reports neither exactly when the date is set and not after today |
| `Validation.TwoViolationsReportedTogether` | app.py:254-269 | checks are collected rather than short-circuited: a 1-character title with 40-character content yields exactly the title message followed by the content message |
| `Text.Strip` | app.py:254 | `str.strip()` never lengthens its input and leaves no whitespace at either end |
| `Text.StripKeepsMiddle` | app.py:254 | the stripped text is the input with only whitespace removed from the two ends; it is empty exactly when the input is all whitespace |
| `Text.StripUnchanged` | app.py:254 | text with no whitespace at either end is returned unchanged |
| `Text.SplitIffSeparates` | app.py:116 | `str.split()` returns exactly the words `w` for which the text is `w` with whitespace runs before, between and after them, the runs between words being non-empty: every token is a maximal non-whitespace run, none is lost, and they come in text order |
| `Text.SplitJoinWords` | app.py:116 | `split` undoes a single-space join of well-formed words |
| `Text.ContainsIffOccurs` | app.py:103-104 | `w in s` holds exactly when `w` occurs at some position of `s` |
| `Text.StrLeTotal` | app.py:226-227 | the string order used for `ORDER BY br.title` relates every pair |
| `Text.StrLeAntisymmetric` | app.py:226-227 | two strings ordered both ways are equal |
| `Text.Truncate` | app.py:1052-1053 | `s[:k] + '...' if len(s) > k else s`: text of at most `k` characters is kept unchanged; longer text becomes its first `k` characters plus "...", exactly `k + 3` long |
| `Text.Preview` | app.py:1264 | the Markdown preview is at most 200 characters of the content and always ends in "..." |
| `Text.PreviewVersusTruncate` | app.py:1264 | for content over 200 characters the preview equals 200-character truncation; for shorter content it differs from it, appending "..." to text that was not cut |
| `Records.Join` | app.py:197-202 | the inner join keeps exactly the reviews whose genre id resolves, and loses none exactly when every review's genre exists |
| `Records.JoinMultiplicity` | app.py:197-202 | the join on the key `genres.id` yields each review whose genre resolves exactly as often as it is stored, and no other review |
| `Query.Where` | app.py:197-220 | the `WHERE` clause keeps every row that satisfies all added clauses exactly as often as it occurs in the join, and drops every other row |
| `Query.ClausesMeanMatches` | app.py:206-220 | the clauses added for a set of criteria hold of a row exactly when the row meets the criteria: genre filter only for a truthy id, date bounds inclusive, and the search matching title or author case-insensitively |
| `Query.PrecedesIsTotalPreorder` | app.py:222-229 | each `ORDER BY` key (NULL ratings lowest) is a total preorder, so sorting by it is well defined |
| `Query.KeptRows` | app.py:197-220 | the filtered join holds a row exactly when its review is stored, its genre resolves and it meets the criteria, and it is no longer than the review table |
| `Query.SortedUnderKey` | app.py:222-229 | a list sorted under the parsed key is newest first for `date_desc`, oldest first for `date_asc`, by title for `title`, and by rating descending with every rated review before every unrated one for `rating_desc` |
| `Query.GetBookReviews` | app.py:193-233 | the result is a permutation of the joined rows that pass the filters; a review appears exactly when it is stored, its genre resolves and it matches; the result is sorted by the requested key, and under `rating_desc` rated reviews come before unrated ones |
| `Pagination.TotalPages` | app.py:639 | `(n - 1) // 10 + 1` is the least page count whose pages hold `n` items |
| `Pagination.Page` | app.py:643-645 | page `p` holds between 1 and 10 items, is full unless it is the last, and its items are those of the list starting at `(p - 1) * 10` |
| `Pagination.Shown` | app.py:641-647 | a single-page list is shown whole, which is the same as its first page |
| `Pagination.PagesPartitionList` | app.py:638-645 | there are `TotalPages` pages, and pages 1 to `TotalPages` read in turn give back the whole list |
| `Stats.MeanRating` | app.py:766-767 | the mean ignores unrated reviews; it is undefined exactly when no review is rated; times the rated count it gives the rating sum, and with ratings in 1..5 it lies in 1.0..5.0 |
| `Stats.MeanOfRated` | app.py:766-767 | the sum of ratings divided by the rated count gives back the sum when multiplied by that count, and lies in 1.0..5.0 when every rating is in 1..5 |
| `Stats.UnratedDoesNotMoveMean` | app.py:766-767 | adding an unrated review leaves the mean unchanged |
| `Stats.LatestReadDate` | app.py:774 | `read_date.max()` is the read date of some review and no review was read later |
| `Stats.MonthlyTrend` | app.py:807-808 | the monthly buckets are in chronological order, none is empty, each month's count is the number of reviews read in it, and the counts add up to the number of reviews |
| `Stats.TrendHasOnlyReadMonths` | app.py:807-808 | a month has a bucket exactly when some review was read in it |
| `Stats.ThisMonthCount` | app.py:849-853 | the current month's count, as the `strftime('%Y-%m')` query gives it, equals that month's count in the trend of the same review list and never exceeds the number of reviews; the application counts over the raw table while its trend is drawn over the joined list, so the two agree when every genre resolves |
| `GenreStats.Groups` | app.py:820-824 | grouping by genre name gives one line per genre that occurs, holding its count, rating sum and rated count; the line counts add up to the rows |
| `GenreStats.GenreAverageIsMean` | app.py:820-823 | a genre's average rating (`'rating': 'mean'` here, `AVG(br.rating)` at app.py:1007) is the mean over that genre's rated reviews, undefined when none is rated |
| `GenreStats.GenreTable` | app.py:820-825 | the genre table is admissible (one line per genre present, each with that genre's statistics, counts non-increasing), sorted by count then name, and its counts sum to the number of rows |
| `GenreStats.SameLines` | app.py:1006-1012 | any two admissible genre tables hold the same lines; only the order of ties can differ |
| `GenreStats.TableSumsToTotal` | app.py:1006-1012 | the counts of any admissible genre table add up to the number of joined rows |
| `GenreStats.MostReadGenre` | app.py:770 | `mode().iloc[0]` is undefined exactly for no reviews; otherwise it is a genre that occurs, no genre occurs more often, and among the equally frequent ones its name sorts first |
| `GenreStats.FirstModeUnique` | app.py:770 | that characterisation picks a single genre |
| `GenreStats.ReportPickIsReadMost` | app.py:1006-1019 | whatever the order of ties, the report's genre is read as often as the dashboard's |
| `GenreStats.UniqueLeaderAgrees` | app.py:1006-1019 | when one genre leads outright, the report and the dashboard name the same genre |
| `GenreStats.ReportPickMayDiffer` | app.py:1006-1019 | with one review each in two genres, `ORDER BY count DESC` admits a table whose first line is not the dashboard's mode |
| `GenreStats.GenreTableAgreesWithMode` | app.py:770 | ordering ties by name makes the first line of the table the mode |
| `Reports.LatestOf` | app.py:773-775 | the latest date is undefined exactly for an empty list, and is otherwise a read date no review exceeds |
| `Reports.DashboardOf` | app.py:759-825 | the four metrics, trend and table are consistent: the table and the trend both add up to the review count, the trend holds one non-empty bucket per month read in chronological order with that month's count (app.py:807-808), the mode and latest date are undefined exactly when there are no reviews, and the mode is the table's first line |
| `Reports.ReportHeaderOf` | app.py:1006-1019 | the report's total and mean cover every stored review, while its genre table covers only those whose genre resolves; the table's counts reach the total exactly when every genre resolves |
| `Reports.TotalsAgreeIffGenresResolve` | app.py:1006-1017 | the report's review count equals the dashboard's exactly when every review's genre resolves |
| `Reports.ReportNamesDashboardGenre` | app.py:1006-1019 | with ties broken by name, the report's most-read genre is the dashboard's |
| `Sentiment.Analyze` | app.py:98-111 | the verdict is positive, negative or neutral exactly as the positive hit count is greater than, less than or equal to the negative one, counted on the text as given, since lower-casing changes no hit |
| `Sentiment.HitsCountsPositions` | app.py:103-104 | the hit count is the number of lexicon positions whose entry occurs in the text |
| `Sentiment.LowerKeepsHits` | app.py:102-104 | for a lexicon without ASCII letters, lower-casing the text changes no hit count |
| `Sentiment.OneSidedTexts` | app.py:106-111 | text with only positive vocabulary is 긍정, with only negative vocabulary 부정, with neither 중립 |
| `Sentiment.HitsGrowWithText` | app.py:103-104 | surrounding a text with more text never lowers its hit count |
| `Sentiment.NestedEntriesCountTwice` | app.py:99-104 | one occurrence of "최고의" scores at least two positive hits, and one of "최악의" at least two negative ones, because the shorter entry lies inside the longer |
| `Keywords.Tally` | app.py:116-121 | `word_freq` holds one entry per token longer than one character, with its number of occurrences, in first-occurrence order |
| `Keywords.Ranking` | app.py:123-124 | the sorted items name every keyword once with its count, with higher counts first and equal counts in first-occurrence order |
| `Keywords.Head` | app.py:125 | `xs[:n]` is a prefix of `xs` of length `min(n, len(xs))`, or for negative `n` of `len(xs) + n` clamped to 0 |
| `Keywords.ExtractKeywords` | app.py:114-125 | every returned word is a keyword of the text; the words are in rank order; there are at most `top_n` (non-negative); any keyword left out is outranked by every returned one; none is left out when fewer than `top_n` come back |
| `Keywords.KeywordsDistinct` | app.py:119-125 | no keyword is returned twice |

## Left out

- **Interface.** The Streamlit widgets, tabs, session state and form flows
  are not modelled. The model takes the form's field values and the chosen
  filters and page as inputs.
- **Storage.** SQLite I/O is not modelled: connections, table creation,
  inserting, updating and deleting reviews and genres, and
  `get_book_review_by_id`. The stored tables are inputs, given as sequences.
- **Rendering.** Plotly charts and the reportlab, Word and Markdown document
  assembly are not modelled. Only the numbers and strings they are given
  are.
- **Float formatting.**
  - `:.1f` formatting and `.round(1)` are not modelled; means and averages
    are exact reals.
  - The monthly-goal percentage (app.py:875) is presentation arithmetic over
    `ThisMonthCount`, so it is not modelled.
  - Where the report formats `rating.mean()` without a `notna` guard
    (app.py:1018, app.py:1247), it prints `nan` when no review is rated. The
    model gives `None` there and does not model the printing.
- **Dead code.** The second copies of the export branches (app.py:1136-1224
  and app.py:1304-1347) sit under `elif` conditions that an earlier branch
  already takes, so they never run.
- **`Query.GetBookReviews` wildcards.** A search text holding `%` or `_` is
  treated as literal text. SQLite's `LIKE` would treat them as wildcards.
- **`Query.GetBookReviews` case folding.** Only ASCII letters are folded,
  which is what SQLite's `LIKE` does by default.
- **`Sentiment.Analyze` lower-casing.** Python's `str.lower()` folds all
  Unicode cased letters; the model folds only ASCII. `LowerKeepsHits` shows
  that the model's ASCII folding changes no hit. Python's full folding
  changes none either, because both lexicons are Hangul and no character
  lowers into or out of a Hangul syllable; that argument is not proved here.
- **`Query.GetBookReviews` tie order.** The rows SQLite returns in an order of
  its own for ties of the sort key are not pinned down. The contract admits
  any order that is sorted by the key.
- **`GenreStats.GenreTable` tie order.** The dashboard's `sort_values` is not
  a stable sort, and the report's `ORDER BY count DESC` (app.py:1006-1012)
  names no tie-break either, so neither table's order among genres of equal
  count is pinned down. The model breaks such ties by name in both;
  `IsGenreTable` admits every order.
- **`Reports.ReportNamesDashboardGenre` agreement.** The report and the
  dashboard agree on the most-read genre only because of that name
  tie-break. The source does not guarantee it: `ReportPickMayDiffer` shows a
  tie order the report may use that names a different genre.
- **Keyword storage.** app.py:332 reads the `keywords` column of the
  feedback-analysis records back with `eval`; nothing in app.py writes that
  column. This read is not modelled.

## Findings

| source | as written | input that shows it | evidently intended | confidence | as-written member | corrected member |
|---|---|---|---|---|---|---|
| app.py:1006-1019 | the report names the first line of a genre table ordered only by `count DESC` | one review in 판타지 and one in SF, stored in that order: `ORDER BY count DESC` may list 판타지 first, while the dashboard's mode (app.py:770) says SF | the report and the dashboard name the same most-read genre | medium, not executed | `GenreStats.ReportPickMayDiffer` | `GenreStats.GenreTableAgreesWithMode` |
| app.py:1264 | the Markdown preview appends "..." to every review, including one that was not cut | a review of 60 characters is shown whole followed by "..." | "..." only when the text was cut, as at app.py:662 | low, not executed | `Text.PreviewVersusTruncate` | `Text.Truncate` |

=== FILE: genres.dfy ===
/**
  The per-genre statistics (독서량 and 평균 평점 per genre, listed by count
  descending) and the "most-read genre" figure, which the dashboard and the
  reports compute in two different ways.
 */
module GenreStats {
  import opened Wrappers
  import opened Text
  import opened Records
  import opened Sorting
  import Stats

  /** One line of the genre table. The average is kept as the sum and the
      number of the ratings behind it. */
  datatype GenreStat = GenreStat(name: string, count: nat, ratingSum: int, rated: nat) {

    /** The genre's mean rating, `None` when none of its reviews is rated. */
    function Average(): Option<real> {
      if rated == 0 then None else Some(ratingSum as real / rated as real)
    }

    /** The line after one more review of this genre. */
    function Bump(r: Review): GenreStat {
      GenreStat(name, count + 1, ratingSum + r.rating.GetOr(0), rated + (if r.rating.Some? then 1 else 0))
    }
  }

  /** The reviews of genre `name`, in row order. */
  function InGenre(rows: seq<Row>, name: string): (rs: seq<Review>)
    ensures |rs| <= |rows|
    ensures |rs| == 0 <==> forall row :: row in rows ==> row.genreName != name
  {
    if |rows| == 0 then []
    else
      var init := rows[..|rows| - 1];
      var last := rows[|rows| - 1];
      assert forall row :: row in rows <==> row in init || row == last;
      InGenre(init, name) + (if last.genreName == name then [last.review] else [])
  }

  /** The line the table should hold for `name`: `COUNT(*)` and the ratings `AVG` averages. */
  function StatFor(rows: seq<Row>, name: string): GenreStat {
    var rs := InGenre(rows, name);
    GenreStat(name, |rs|, Stats.RatingSum(rs), Stats.RatedCount(rs))
  }

  /** A genre's average is the mean rating of its reviews, with the same
      "undefined when none is rated" rule as the overall mean. */
  lemma GenreAverageIsMean(rows: seq<Row>, name: string)
    ensures StatFor(rows, name).Average() == Stats.MeanRating(InGenre(rows, name))
  {
  }

  // ---------------------------------------------------------------------------
  // GROUP BY genre name

  /** The line for `name` in a list of lines, if any. */
  function Lookup(gs: seq<GenreStat>, name: string): Option<GenreStat> {
    if |gs| == 0 then None
    else if gs[0].name == name then Some(gs[0])
    else Lookup(gs[1..], name)
  }

  ghost predicate DistinctNames(gs: seq<GenreStat>) {
    forall i, j :: 0 <= i < j < |gs| ==> gs[i].name != gs[j].name
  }

  function Sum(gs: seq<GenreStat>): nat {
    if |gs| == 0 then 0 else gs[0].count + Sum(gs[1..])
  }

  lemma {:induction false} LookupFinds(gs: seq<GenreStat>, i: int)
    requires DistinctNames(gs) && 0 <= i < |gs|
    ensures Lookup(gs, gs[i].name) == Some(gs[i])
  {
    if i > 0 {
      LookupFinds(gs[1..], i - 1);
    }
  }

  lemma {:induction false} LookupMisses(gs: seq<GenreStat>, name: string)
    requires forall i :: 0 <= i < |gs| ==> gs[i].name != name
    ensures Lookup(gs, name) == None
  {
    if |gs| > 0 {
      LookupMisses(gs[1..], name);
    }
  }

  lemma {:induction false} LookupIn(gs: seq<GenreStat>, name: string)
    requires Lookup(gs, name).Some?
    ensures exists i :: 0 <= i < |gs| && gs[i] == Lookup(gs, name).value && gs[i].name == name
  {
    if gs[0].name != name {
      LookupIn(gs[1..], name);
      var i :| 0 <= i < |gs[1..]| && gs[1..][i] == Lookup(gs, name).value && gs[1..][i].name == name;
      assert gs[i + 1] == gs[1..][i];
    }
  }

  /** With distinct names, `gs[0].name` is missing from `gs[1..]`; so it is
      missing from any line sequence that looks it up the same way. */
  lemma NewNameIsAbsent(gs: seq<GenreStat>, tail: seq<GenreStat>, i: int)
    requires DistinctNames(gs) && DistinctNames(tail) && |gs| > 0 && 0 <= i < |tail|
    requires Lookup(tail, gs[0].name) == Lookup(gs[1..], gs[0].name)
    ensures tail[i].name != gs[0].name
  {
    LookupMisses(gs[1..], gs[0].name);
    LookupFinds(tail, i);
  }

  /** Counts one more row into the group lines. */
  function AddRow(gs: seq<GenreStat>, row: Row): (r: seq<GenreStat>)
    requires DistinctNames(gs)
    ensures DistinctNames(r)
    ensures forall x :: Lookup(r, x) == (if x == row.genreName
                                         then Some(Lookup(gs, x).GetOr(GenreStat(x, 0, 0, 0)).Bump(row.review))
                                         else Lookup(gs, x))
    ensures Sum(r) == Sum(gs) + 1
  {
    if |gs| == 0 then
      [GenreStat(row.genreName, 0, 0, 0).Bump(row.review)]
    else if gs[0].name == row.genreName then
      var r := [gs[0].Bump(row.review)] + gs[1..];
      assert r[1..] == gs[1..];
      r
    else
      var tail := AddRow(gs[1..], row);
      var r := [gs[0]] + tail;
      assert r[1..] == tail;
      forall i | 0 <= i < |tail| ensures tail[i].name != gs[0].name {
        NewNameIsAbsent(gs, tail, i);
      }
      r
  }

  /** Appending a row changes only its own genre's line, by one review. */
  lemma StatForSnoc(init: seq<Row>, last: Row, x: string)
    ensures StatFor(init + [last], x) ==
      (if x == last.genreName then StatFor(init, x).Bump(last.review) else StatFor(init, x))
  {
    var rows := init + [last];
    assert rows[..|rows| - 1] == init;
    var rs := InGenre(init, x);
    if x == last.genreName {
      assert (rs + [last.review])[..|rs|] == rs;
    } else {
      assert rs + [] == rs;
    }
  }

  /** `GROUP BY g.name`: one line per genre that occurs, holding that genre's statistics. */
  function Groups(rows: seq<Row>): (gs: seq<GenreStat>)
    ensures DistinctNames(gs)
    ensures forall x :: Lookup(gs, x) == (if StatFor(rows, x).count > 0 then Some(StatFor(rows, x)) else None)
    ensures Sum(gs) == |rows|
  {
    if |rows| == 0 then []
    else
      var init := rows[..|rows| - 1];
      var last := rows[|rows| - 1];
      assert rows == init + [last];
      forall x ensures StatFor(rows, x) ==
        (if x == last.genreName then StatFor(init, x).Bump(last.review) else StatFor(init, x))
      {
        StatForSnoc(init, last, x);
      }
      AddRow(Groups(init), last)
  }

  /** Each group line is its genre's statistics, and every genre that occurs has a line. */
  lemma GroupLines(rows: seq<Row>)
    ensures forall i :: 0 <= i < |Groups(rows)| ==>
      Groups(rows)[i] == StatFor(rows, Groups(rows)[i].name) && Groups(rows)[i].count >= 1
    ensures forall row :: row in rows ==> exists i :: 0 <= i < |Groups(rows)| && Groups(rows)[i].name == row.genreName
  {
    var gs := Groups(rows);
    forall i | 0 <= i < |gs| ensures gs[i] == StatFor(rows, gs[i].name) && gs[i].count >= 1 {
      LookupFinds(gs, i);
    }
    forall row | row in rows ensures exists i :: 0 <= i < |gs| && gs[i].name == row.genreName {
      assert |InGenre(rows, row.genreName)| > 0;
      LookupIn(gs, row.genreName);
    }
  }

  // ---------------------------------------------------------------------------
  // ORDER BY count DESC

  /** What any admissible genre table is: one line per genre that occurs, with
      that genre's statistics, lines in non-increasing count order; lines of
      equal count may come in any order. */
  ghost predicate IsGenreTable(rows: seq<Row>, t: seq<GenreStat>) {
    && DistinctNames(t)
    && (forall i :: 0 <= i < |t| ==> t[i] == StatFor(rows, t[i].name) && t[i].count >= 1)
    && (forall row :: row in rows ==> exists i :: 0 <= i < |t| && t[i].name == row.genreName)
    && (forall i, j :: 0 <= i < j < |t| ==> t[i].count >= t[j].count)
  }

  /** Count descending, ties by name ascending (the tie-break pandas' `groupby`
      order gives and the dashboard's mode uses). */
  function ByCountThenName(): (GenreStat, GenreStat) -> bool {
    (a: GenreStat, b: GenreStat) => a.count > b.count || (a.count == b.count && StrLe(a.name, b.name))
  }

  lemma ByCountThenNameIsTotalPreorder()
    ensures TotalPreorder(ByCountThenName())
  {
    forall a: GenreStat, b: GenreStat
      ensures ByCountThenName()(a, b) || ByCountThenName()(b, a)
    {
      StrLeTotal(a.name, b.name);
    }
    forall a: GenreStat, b: GenreStat, c: GenreStat | ByCountThenName()(a, b) && ByCountThenName()(b, c)
      ensures ByCountThenName()(a, c)
    {
      if a.count == b.count == c.count {
        StrLeTransitive(a.name, b.name, c.name);
      }
    }
  }

  lemma {:induction false} SumConcat(a: seq<GenreStat>, b: seq<GenreStat>)
    ensures Sum(a + b) == Sum(a) + Sum(b)
  {
    if |a| > 0 {
      assert (a + b)[1..] == a[1..] + b;
      SumConcat(a[1..], b);
    } else {
      assert a + b == b;
    }
  }

  lemma {:induction false} SumPermutation(a: seq<GenreStat>, b: seq<GenreStat>)
    requires multiset(a) == multiset(b)
    ensures Sum(a) == Sum(b)
    decreases |a|
  {
    if |a| > 0 {
      var x := a[0];
      assert x in multiset(b);
      var k :| 0 <= k < |b| && b[k] == x;
      var rest := b[..k] + b[k + 1..];
      RemoveOne(a, b, k);
      SumPermutation(a[1..], rest);
      SumWithout(b, k);
    } else {
      assert |b| == |multiset(b)| == 0;
    }
  }

  /** Taking the same line out of two permutations leaves permutations. */
  lemma RemoveOne(a: seq<GenreStat>, b: seq<GenreStat>, k: int)
    requires multiset(a) == multiset(b) && |a| > 0 && 0 <= k < |b| && b[k] == a[0]
    ensures multiset(a[1..]) == multiset(b[..k] + b[k + 1..])
  {
    var x := a[0];
    var rest := b[..k] + b[k + 1..];
    assert b == b[..k] + [x] + b[k + 1..];
    assert a == [x] + a[1..];
    assert multiset(b) == multiset(b[..k]) + multiset{x} + multiset(b[k + 1..]);
    assert multiset(rest) == multiset(b[..k]) + multiset(b[k + 1..]);
    assert multiset(a) == multiset(a[1..]) + multiset{x};
    assert multiset(rest) + multiset{x} == multiset(b);
    assert multiset(rest) == (multiset(rest) + multiset{x}) - multiset{x};
    assert multiset(a[1..]) == (multiset(a[1..]) + multiset{x}) - multiset{x};
  }

  /** The sum without line `k` is the sum less that line's count. */
  lemma {:induction false} SumWithout(b: seq<GenreStat>, k: int)
    requires 0 <= k < |b|
    ensures Sum(b) == Sum(b[..k] + b[k + 1..]) + b[k].count
  {
    if k == 0 {
      assert b[..0] + b[1..] == b[1..];
    } else {
      var tail := b[1..];
      SumWithout(tail, k - 1);
      assert b[..k] + b[k + 1..] == [b[0]] + (tail[..k - 1] + tail[k..]);
    }
  }

  /** A permutation of the group lines in non-increasing count order is an
      admissible table. */
  lemma PermutedGroupsAreTable(rows: seq<Row>, t: seq<GenreStat>)
    requires multiset(t) == multiset(Groups(rows))
    requires forall i, j :: 0 <= i < j < |t| ==> t[i].count >= t[j].count
    ensures IsGenreTable(rows, t)
  {
    var gs := Groups(rows);
    GroupLines(rows);
    forall i | 0 <= i < |t| ensures t[i] == StatFor(rows, t[i].name) && t[i].count >= 1 {
      assert t[i] in multiset(gs);
      var j :| 0 <= j < |gs| && gs[j] == t[i];
    }
    forall row | row in rows ensures exists i :: 0 <= i < |t| && t[i].name == row.genreName {
      var j :| 0 <= j < |gs| && gs[j].name == row.genreName;
      assert gs[j] in multiset(t);
      var i :| 0 <= i < |t| && t[i] == gs[j];
    }
    assert Distinct(gs);
    DistinctPermutation(gs, t);
  }

  /** The genre table as computed here: the groups sorted by count descending,
      ties by name ascending. It is one admissible table, and its counts add
      up to the number of rows. */
  function GenreTable(rows: seq<Row>): (t: seq<GenreStat>)
    ensures IsGenreTable(rows, t)
    ensures SortedBy(t, ByCountThenName())
    ensures Sum(t) == |rows|
  {
    ByCountThenNameIsTotalPreorder();
    var t := Sort(Groups(rows), ByCountThenName());
    PermutedGroupsAreTable(rows, t);
    SumPermutation(Groups(rows), t);
    t
  }

  /** Two admissible tables hold the same lines. */
  lemma SameLines(rows: seq<Row>, t: seq<GenreStat>, u: seq<GenreStat>)
    requires IsGenreTable(rows, t) && IsGenreTable(rows, u)
    ensures multiset(t) == multiset(u)
  {
    forall x | x in t ensures x in u {
      var i :| 0 <= i < |t| && t[i] == x;
      assert |InGenre(rows, x.name)| > 0;
      var row :| row in rows && row.genreName == x.name;
      var j :| 0 <= j < |u| && u[j].name == row.genreName;
    }
    forall x | x in u ensures x in t {
      var i :| 0 <= i < |u| && u[i] == x;
      assert |InGenre(rows, x.name)| > 0;
      var row :| row in rows && row.genreName == x.name;
      var j :| 0 <= j < |t| && t[j].name == row.genreName;
    }
    DistinctSameElements(t, u);
  }

  /** Any admissible table's counts add up to the number of rows. */
  lemma TableSumsToTotal(rows: seq<Row>, t: seq<GenreStat>)
    requires IsGenreTable(rows, t)
    ensures Sum(t) == |rows|
  {
    SameLines(rows, t, GenreTable(rows));
    SumPermutation(t, GenreTable(rows));
  }

  // ---------------------------------------------------------------------------
  // Most-read genre

  /** Number of rows of genre `name`. */
  function CountOf(rows: seq<Row>, name: string): nat {
    |InGenre(rows, name)|
  }

  /** Genre `a` wins over genre `b` in `rows`: it is read more often, or as
      often and its name does not sort after `b`. */
  predicate Beats(rows: seq<Row>, a: string, b: string) {
    CountOf(rows, a) > CountOf(rows, b) || (CountOf(rows, a) == CountOf(rows, b) && StrLe(a, b))
  }

  lemma StrLeReflexive(a: string)
    ensures StrLe(a, a)
  {
    StrLeTotal(a, a);
  }

  /** The genre among `cands` that beats every genre of `cands`. */
  function Winner(rows: seq<Row>, cands: seq<Row>): (m: string)
    requires |cands| > 0
    ensures exists row :: row in cands && row.genreName == m
    ensures forall row :: row in cands ==> Beats(rows, m, row.genreName)
  {
    var first := cands[0].genreName;
    StrLeReflexive(first);
    if |cands| == 1 then
      first
    else
      var rest := Winner(rows, cands[1..]);
      assert forall row :: row in cands <==> row == cands[0] || row in cands[1..];
      StrLeTotal(first, rest);
      if Beats(rows, first, rest) then
        forall row | row in cands[1..] ensures Beats(rows, first, row.genreName) {
          if CountOf(rows, first) == CountOf(rows, rest) == CountOf(rows, row.genreName) {
            StrLeTransitive(first, rest, row.genreName);
          }
        }
        first
      else
        rest
  }

  /** `m` is a mode of the rows' genres that sorts first among the modes: it
      occurs, no genre occurs more often, and every genre that occurs as often
      has a name not before it. */
  ghost predicate IsFirstMode(rows: seq<Row>, m: string) {
    && (exists row :: row in rows && row.genreName == m)
    && (forall row :: row in rows ==> CountOf(rows, row.genreName) <= CountOf(rows, m))
    && (forall row :: row in rows && CountOf(rows, row.genreName) == CountOf(rows, m) ==>
          StrLe(m, row.genreName))
  }

  /** There is only one first mode. */
  lemma FirstModeUnique(rows: seq<Row>, a: string, b: string)
    requires IsFirstMode(rows, a) && IsFirstMode(rows, b)
    ensures a == b
  {
    var ra :| ra in rows && ra.genreName == a;
    var rb :| rb in rows && rb.genreName == b;
    StrLeAntisymmetric(a, b);
  }

  /** The dashboard's `genre_name.mode().iloc[0]`: among the genres read most
      often, the one whose name sorts first; `None` ("없음") for no reviews. */
  function MostReadGenre(rows: seq<Row>): (m: Option<string>)
    ensures m.None? <==> |rows| == 0
    ensures m.Some? ==> IsFirstMode(rows, m.value)
  {
    if |rows| == 0 then None else Some(Winner(rows, rows))
  }

  /** The reports' `genre_stats.iloc[0]['genre_name']`: the first line of the
      table, `None` ("없음") for an empty table. */
  function ReportMostRead(t: seq<GenreStat>): (m: Option<string>)
    ensures m.None? <==> |t| == 0
    ensures m.Some? ==> m.value == t[0].name
  {
    if |t| == 0 then None else Some(t[0].name)
  }

  /** Whatever order the database gives tied lines, the report's genre is read
      as often as the dashboard's. */
  lemma ReportPickIsReadMost(rows: seq<Row>, t: seq<GenreStat>)
    requires IsGenreTable(rows, t) && |rows| > 0
    ensures ReportMostRead(t).Some? && MostReadGenre(rows).Some?
    ensures CountOf(rows, ReportMostRead(t).value) == CountOf(rows, MostReadGenre(rows).value)
  {
    assert rows[0] in rows;
    var m := MostReadGenre(rows).value;
    var row :| row in rows && row.genreName == m;
    var i :| 0 <= i < |t| && t[i].name == m;
    assert t[0].count >= t[i].count;
    assert |InGenre(rows, t[0].name)| > 0;
    var r0 :| r0 in rows && r0.genreName == t[0].name;
  }

  /** When one genre is read strictly more often than every other, the report
      and the dashboard name the same genre. */
  lemma UniqueLeaderAgrees(rows: seq<Row>, t: seq<GenreStat>)
    requires IsGenreTable(rows, t) && |rows| > 0
    requires forall row :: row in rows && row.genreName != MostReadGenre(rows).value ==>
               CountOf(rows, row.genreName) < CountOf(rows, MostReadGenre(rows).value)
    ensures ReportMostRead(t) == MostReadGenre(rows)
  {
    ReportPickIsReadMost(rows, t);
    var r0 :| r0 in rows && r0.genreName == t[0].name by {
      assert |InGenre(rows, t[0].name)| > 0;
    }
  }

  /** On a tie the two disagree: with one 판타지 review listed before one SF
      review, a table that lists 판타지 first is admissible for the report's
      `ORDER BY count DESC`, while the dashboard's mode picks SF. */
  lemma ReportPickMayDiffer(fantasy: Review, scifi: Review)
    ensures
      var rows := [Row(fantasy, "판타지"), Row(scifi, "SF")];
      var t := [StatFor(rows, "판타지"), StatFor(rows, "SF")];
      && IsGenreTable(rows, t)
      && ReportMostRead(t) == Some("판타지")
      && MostReadGenre(rows) == Some("SF")
  {
    TwoGenreTable(fantasy, scifi);
    TwoGenreMode(fantasy, scifi);
  }

  lemma TwoGenreTable(fantasy: Review, scifi: Review)
    ensures
      var rows := [Row(fantasy, "판타지"), Row(scifi, "SF")];
      IsGenreTable(rows, [StatFor(rows, "판타지"), StatFor(rows, "SF")])
  {
    var rows := [Row(fantasy, "판타지"), Row(scifi, "SF")];
    var t := [StatFor(rows, "판타지"), StatFor(rows, "SF")];
    TwoGenreCounts(fantasy, scifi);
    assert "판타지" != "SF" by { assert "판타지"[0] != "SF"[0]; }
    assert DistinctNames(t);
    assert t[0].count == 1 && t[1].count == 1;
    assert forall row :: row in rows ==> row == rows[0] || row == rows[1];
    assert t[0].name == rows[0].genreName && t[1].name == rows[1].genreName;
  }

  lemma TwoGenreMode(fantasy: Review, scifi: Review)
    ensures MostReadGenre([Row(fantasy, "판타지"), Row(scifi, "SF")]) == Some("SF")
  {
    var rows := [Row(fantasy, "판타지"), Row(scifi, "SF")];
    TwoGenreCounts(fantasy, scifi);
    var m := MostReadGenre(rows).value;
    assert rows[1] in rows;
    assert !StrLe("판타지", "SF");
    assert m == "SF";
  }

  lemma TwoGenreCounts(fantasy: Review, scifi: Review)
    ensures
      var rows := [Row(fantasy, "판타지"), Row(scifi, "SF")];
      && CountOf(rows, "판타지") == 1 && CountOf(rows, "SF") == 1
      && forall row :: row in rows ==> row.genreName == "판타지" || row.genreName == "SF"
  {
    var rows := [Row(fantasy, "판타지"), Row(scifi, "SF")];
    assert "판타지" != "SF" by { assert "판타지"[0] != "SF"[0]; }
    assert rows[..1] == [rows[0]];
    assert rows[..0] == [];
    assert InGenre(rows[..1], "판타지") == [fantasy];
    assert InGenre(rows[..1], "SF") == [];
  }

  /** With the tie broken by name, as this model's `GenreTable` does, the first
      line is exactly the dashboard's mode. */
  lemma GenreTableAgreesWithMode(rows: seq<Row>)
    requires |rows| > 0
    ensures ReportMostRead(GenreTable(rows)) == MostReadGenre(rows)
  {
    var t := GenreTable(rows);
    var m := MostReadGenre(rows).value;
    assert rows[0] in rows;
    var i :| 0 <= i < |t| && t[i].name == m;
    assert |InGenre(rows, t[0].name)| > 0;
    var r0 :| r0 in rows && r0.genreName == t[0].name;
    if i > 0 {
      assert ByCountThenName()(t[0], t[i]);
    }
    assert StrLe(t[0].name, m) && StrLe(m, t[0].name);
    StrLeAntisymmetric(t[0].name, m);
  }
}

=== FILE: keywords.dfy ===
/**
  Frequency-based keyword extraction (`extract_keywords`): split the text on
  whitespace, count every token longer than one character, rank the distinct
  tokens by count (Python's sort is stable, so equal counts keep the order in
  which the tokens first appeared) and keep the first `top_n`.
 */
module Keywords {
  import opened Text
  import opened Sorting

  /** Single-character tokens are never keywords. */
  predicate IsKeyword(w: string) {
    |w| > 1
  }

  /** How often `w` occurs among `words`. */
  function Occurrences(words: seq<string>, w: string): (n: nat)
    ensures n <= |words|
    ensures n == 0 <==> w !in words
  {
    if |words| == 0 then 0
    else
      var init, last := words[..|words| - 1], words[|words| - 1];
      assert words == init + [last];
      Occurrences(init, w) + (if last == w then 1 else 0)
  }

  /** The position of the first occurrence of `w`. */
  function FirstIndex(words: seq<string>, w: string): (k: nat)
    requires w in words
    ensures k < |words| && words[k] == w && w !in words[..k]
  {
    var init := words[..|words| - 1];
    assert words == init + [words[|words| - 1]];
    if w in init then
      var k := FirstIndex(init, w);
      assert words[..k] == init[..k];
      k
    else
      |words| - 1
  }

  /** Keyword `a` ranks above keyword `b`: it is more frequent, or as frequent
      and seen first. */
  predicate Outranks(words: seq<string>, a: string, b: string)
    requires a in words && b in words
  {
    || Occurrences(words, a) > Occurrences(words, b)
    || (Occurrences(words, a) == Occurrences(words, b) && FirstIndex(words, a) < FirstIndex(words, b))
  }

  /** One line of `word_freq`: a keyword, its count, and its insertion position. */
  datatype Entry = Entry(word: string, freq: nat, rank: nat)

  /** What `word_freq` holds after reading `words`: one entry per keyword, in
      first-occurrence order, each with its count. */
  ghost predicate TallyOf(words: seq<string>, es: seq<Entry>) {
    && (forall i :: 0 <= i < |es| ==> es[i].rank == i)
    && (forall i :: 0 <= i < |es| ==>
          es[i].word in words && IsKeyword(es[i].word) && es[i].freq == Occurrences(words, es[i].word))
    && (forall w :: w in words && IsKeyword(w) ==> exists i :: 0 <= i < |es| && es[i].word == w)
    && (forall i, j :: 0 <= i < j < |es| ==> FirstIndex(words, es[i].word) < FirstIndex(words, es[j].word))
  }

  /** The position of `w`'s entry, or -1. */
  function Find(es: seq<Entry>, w: string): (k: int)
    ensures -1 <= k < |es|
    ensures k >= 0 ==> es[k].word == w
    ensures k == -1 <==> forall i :: 0 <= i < |es| ==> es[i].word != w
  {
    if |es| == 0 then -1
    else if es[|es| - 1].word == w then |es| - 1
    else Find(es[..|es| - 1], w)
  }

  /** `word_freq[word] = word_freq.get(word, 0) + 1` for a keyword; other tokens are skipped. */
  function Record(es: seq<Entry>, w: string): seq<Entry> {
    if !IsKeyword(w) then es
    else
      var k := Find(es, w);
      if k >= 0 then es[k := es[k].(freq := es[k].freq + 1)]
      else es + [Entry(w, 1, |es|)]
  }

  lemma OccurrencesSnoc(init: seq<string>, x: string, w: string)
    ensures Occurrences(init + [x], w) == Occurrences(init, w) + (if x == w then 1 else 0)
  {
    assert (init + [x])[..|init|] == init;
  }

  lemma FirstIndexSnoc(init: seq<string>, x: string, w: string)
    requires w in init
    ensures FirstIndex(init + [x], w) == FirstIndex(init, w)
  {
    assert (init + [x])[..|init|] == init;
  }

  /** Entries of a tally name different keywords. */
  lemma TallyWordsDistinct(words: seq<string>, es: seq<Entry>, i: int, j: int)
    requires TallyOf(words, es) && 0 <= i < |es| && 0 <= j < |es| && i != j
    ensures es[i].word != es[j].word
  {
    if i < j {
      assert FirstIndex(words, es[i].word) < FirstIndex(words, es[j].word);
    } else {
      assert FirstIndex(words, es[j].word) < FirstIndex(words, es[i].word);
    }
  }

  /** A token that is not a keyword changes nothing. */
  lemma SkipKeepsTally(init: seq<string>, es: seq<Entry>, x: string)
    requires TallyOf(init, es) && !IsKeyword(x)
    ensures TallyOf(init + [x], es)
  {
    var words := init + [x];
    assert forall w :: w in words <==> w in init || w == x;
    forall w | w in init && IsKeyword(w)
      ensures FirstIndex(words, w) == FirstIndex(init, w) && Occurrences(words, w) == Occurrences(init, w)
    {
      FirstIndexSnoc(init, x, w);
      OccurrencesSnoc(init, x, w);
    }
  }

  /** A keyword seen before: its entry counts one more, nothing moves. */
  lemma BumpKeepsTally(init: seq<string>, es: seq<Entry>, x: string, k: int)
    requires TallyOf(init, es) && IsKeyword(x) && 0 <= k < |es| && es[k].word == x
    ensures TallyOf(init + [x], es[k := es[k].(freq := es[k].freq + 1)])
  {
    var words := init + [x];
    var r := es[k := es[k].(freq := es[k].freq + 1)];
    assert forall w :: w in words <==> w in init || w == x;
    forall w | w in init ensures FirstIndex(words, w) == FirstIndex(init, w) {
      FirstIndexSnoc(init, x, w);
    }
    forall i | 0 <= i < |r|
      ensures r[i].word == es[i].word && r[i].rank == i
      ensures r[i].freq == Occurrences(words, r[i].word)
    {
      OccurrencesSnoc(init, x, r[i].word);
      if i != k {
        TallyWordsDistinct(init, es, i, k);
      }
    }
    forall w | w in words && IsKeyword(w) ensures exists i :: 0 <= i < |r| && r[i].word == w {
      if w == x {
        assert r[k].word == w;
      } else {
        var i :| 0 <= i < |es| && es[i].word == w;
        assert r[i].word == w;
      }
    }
  }

  /** A new keyword: a new entry at the end, first seen at the last position. */
  lemma AppendKeepsTally(init: seq<string>, es: seq<Entry>, x: string)
    requires TallyOf(init, es) && IsKeyword(x)
    requires forall i :: 0 <= i < |es| ==> es[i].word != x
    ensures TallyOf(init + [x], es + [Entry(x, 1, |es|)])
  {
    var words := init + [x];
    var r := es + [Entry(x, 1, |es|)];
    assert forall w :: w in words <==> w in init || w == x;
    assert x !in init;
    forall w | w in init ensures FirstIndex(words, w) == FirstIndex(init, w) {
      FirstIndexSnoc(init, x, w);
    }
    assert words[..|init|] == init;
    assert FirstIndex(words, x) == |init|;
    forall i | 0 <= i < |r|
      ensures r[i].freq == Occurrences(words, r[i].word)
    {
      OccurrencesSnoc(init, x, r[i].word);
    }
    forall w | w in words && IsKeyword(w) ensures exists i :: 0 <= i < |r| && r[i].word == w {
      if w == x {
        assert r[|es|].word == w;
      } else {
        var i :| 0 <= i < |es| && es[i].word == w;
        assert r[i].word == w;
      }
    }
    forall i, j | 0 <= i < j < |r| ensures FirstIndex(words, r[i].word) < FirstIndex(words, r[j].word) {
      assert r[i] == es[i];
      if j < |es| {
        assert r[j] == es[j];
      }
    }
  }

  lemma RecordKeepsTally(init: seq<string>, es: seq<Entry>, x: string)
    requires TallyOf(init, es)
    ensures TallyOf(init + [x], Record(es, x))
  {
    if !IsKeyword(x) {
      SkipKeepsTally(init, es, x);
    } else {
      var k := Find(es, x);
      if k >= 0 {
        BumpKeepsTally(init, es, x, k);
      } else {
        AppendKeepsTally(init, es, x);
      }
    }
  }

  /** The `for word in words` loop that fills `word_freq`. */
  function Tally(words: seq<string>): (es: seq<Entry>)
    ensures TallyOf(words, es)
  {
    if |words| == 0 then []
    else
      var init, last := words[..|words| - 1], words[|words| - 1];
      var es := Tally(init);
      RecordKeepsTally(init, es, last);
      assert init + [last] == words;
      Record(es, last)
  }

  /** `key=lambda x: x[1], reverse=True` on a stable sort: larger count first,
      and among equal counts the earlier insertion first. */
  function Before(): (Entry, Entry) -> bool {
    (a: Entry, b: Entry) => a.freq > b.freq || (a.freq == b.freq && a.rank <= b.rank)
  }

  lemma BeforeIsTotalPreorder()
    ensures TotalPreorder(Before())
  {
  }

  /** What the sorted `word_freq.items()` is: every keyword once, each with
      its count, strictly in rank order. */
  ghost predicate RankingOf(words: seq<string>, es: seq<Entry>) {
    && (forall i :: 0 <= i < |es| ==>
          es[i].word in words && IsKeyword(es[i].word) && es[i].freq == Occurrences(words, es[i].word))
    && (forall w :: w in words && IsKeyword(w) ==> exists i :: 0 <= i < |es| && es[i].word == w)
    && (forall i, j :: 0 <= i < j < |es| ==> Outranks(words, es[i].word, es[j].word))
  }

  /** An entry of a tally sits at its rank, and rank order is first-occurrence order. */
  lemma RankOrder(words: seq<string>, t: seq<Entry>, a: Entry, b: Entry)
    requires TallyOf(words, t) && a in t && b in t
    ensures a == t[a.rank] && b == t[b.rank]
    ensures a.rank < b.rank ==> FirstIndex(words, a.word) < FirstIndex(words, b.word)
  {
    var i :| 0 <= i < |t| && t[i] == a;
    var j :| 0 <= j < |t| && t[j] == b;
  }

  lemma SortedTallyIsRanking(words: seq<string>, t: seq<Entry>, r: seq<Entry>)
    requires TallyOf(words, t)
    requires multiset(r) == multiset(t) && SortedBy(r, Before())
    ensures RankingOf(words, r)
  {
    assert Distinct(t) by {
      forall i, j | 0 <= i < j < |t| ensures t[i] != t[j] {
        assert t[i].rank != t[j].rank;
      }
    }
    DistinctPermutation(t, r);
    assert forall x :: x in r <==> x in t by {
      forall x ensures x in r <==> x in t {
        assert x in r <==> x in multiset(r);
        assert x in t <==> x in multiset(t);
      }
    }
    forall w | w in words && IsKeyword(w) ensures exists i :: 0 <= i < |r| && r[i].word == w {
      var k :| 0 <= k < |t| && t[k].word == w;
      assert t[k] in r;
    }
    forall i | 0 <= i < |r|
      ensures r[i].word in words && IsKeyword(r[i].word) && r[i].freq == Occurrences(words, r[i].word)
    {
      assert r[i] in r;
      RankOrder(words, t, r[i], r[i]);
    }
    forall i, j | 0 <= i < j < |r| ensures Outranks(words, r[i].word, r[j].word) {
      RankedPair(words, t, r, i, j);
    }
  }

  lemma RankedPair(words: seq<string>, t: seq<Entry>, r: seq<Entry>, i: int, j: int)
    requires TallyOf(words, t) && Distinct(r) && SortedBy(r, Before())
    requires forall x :: x in r ==> x in t
    requires 0 <= i < j < |r|
    ensures r[i].word in words && r[j].word in words
    ensures Outranks(words, r[i].word, r[j].word)
  {
    var a, b := r[i], r[j];
    assert a in r && b in r;
    RankOrder(words, t, a, b);
    assert Before()(a, b);
    assert a != b;
  }

  /** `sorted(word_freq.items(), key=lambda x: x[1], reverse=True)`. */
  function Ranking(words: seq<string>): (r: seq<Entry>)
    ensures RankingOf(words, r)
  {
    var t := Tally(words);
    BeforeIsTotalPreorder();
    var r := Sort(t, Before());
    SortedTallyIsRanking(words, t, r);
    r
  }

  /** Python's `xs[:n]`: a negative `n` drops that many from the end. */
  function Head<T>(xs: seq<T>, n: int): (r: seq<T>)
    ensures r <= xs
    ensures n >= 0 ==> |r| == if n < |xs| then n else |xs|
    ensures n < 0 ==> |r| == if |xs| + n > 0 then |xs| + n else 0
  {
    if n >= 0 then (if n < |xs| then xs[..n] else xs)
    else if |xs| + n > 0 then xs[..|xs| + n]
    else []
  }

  function WordsOf(es: seq<Entry>): (ws: seq<string>)
    ensures |ws| == |es| && forall i :: 0 <= i < |es| ==> ws[i] == es[i].word
  {
    seq(|es|, i requires 0 <= i < |es| => es[i].word)
  }

  /** The words of the first `n` lines of a ranking are keywords in rank
      order, outrank every keyword left out, and leave none out when fewer
      than `n` were returned. */
  ghost predicate TopKeywords(words: seq<string>, n: int, ks: seq<string>) {
    && (forall i :: 0 <= i < |ks| ==> ks[i] in words && IsKeyword(ks[i]))
    && (forall i, j :: 0 <= i < j < |ks| ==> Outranks(words, ks[i], ks[j]))
    && (n >= 0 ==> |ks| <= n)
    && (n >= 0 && |ks| < n ==> forall w :: w in words && IsKeyword(w) ==> w in ks)
    && (forall w :: w in words && IsKeyword(w) && w !in ks ==>
          forall i :: 0 <= i < |ks| ==> Outranks(words, ks[i], w))
  }

  lemma HeadOfRanking(words: seq<string>, r: seq<Entry>, n: int)
    requires RankingOf(words, r)
    ensures TopKeywords(words, n, WordsOf(Head(r, n)))
  {
    var top := Head(r, n);
    var ks := WordsOf(top);
    assert forall i :: 0 <= i < |top| ==> top[i] == r[i];
    forall w | w in words && IsKeyword(w) && w !in ks
      ensures forall i :: 0 <= i < |ks| ==> Outranks(words, ks[i], w)
    {
      var j :| 0 <= j < |r| && r[j].word == w;
      assert j >= |top|;
    }
    if n >= 0 && |ks| < n {
      assert top == r;
      forall w | w in words && IsKeyword(w) ensures w in ks {
        var j :| 0 <= j < |r| && r[j].word == w;
        assert ks[j] == w;
      }
    }
  }

  /** `extract_keywords(text, top_n)`. */
  function ExtractKeywords(text: string, topN: int): (ks: seq<string>)
    ensures TopKeywords(Split(text), topN, ks)
  {
    var r := Ranking(Split(text));
    HeadOfRanking(Split(text), r, topN);
    WordsOf(Head(r, topN))
  }

  /** No keyword is returned twice. */
  lemma KeywordsDistinct(text: string, topN: int)
    ensures Distinct(ExtractKeywords(text, topN))
  {
    var ks := ExtractKeywords(text, topN);
    var words := Split(text);
    forall i, j | 0 <= i < j < |ks| ensures ks[i] != ks[j] {
      assert Outranks(words, ks[i], ks[j]);
    }
  }
}

=== FILE: pagination.dfy ===
/**
  Pagination of the review list: ten reviews per page, pages numbered
  from 1, the last page holding the remainder.
 */
module Pagination {

  const ItemsPerPage: nat := 10

  /** `(len(reviews_df) - 1) // items_per_page + 1`, for a non-empty list. */
  function TotalPages(n: nat): (pages: nat)
    requires n > 0
    ensures pages >= 1
    ensures (pages - 1) * ItemsPerPage < n <= pages * ItemsPerPage
  {
    (n - 1) / ItemsPerPage + 1
  }

  /** `reviews_df.iloc[start_idx:end_idx]` for page `p`: the end index is clamped
      to the list length as pandas slicing does. */
  function Page<T>(rows: seq<T>, p: nat): (page: seq<T>)
    requires |rows| > 0 && 1 <= p <= TotalPages(|rows|)
    ensures 1 <= |page| <= ItemsPerPage
    ensures p < TotalPages(|rows|) ==> |page| == ItemsPerPage
    ensures (p - 1) * ItemsPerPage + |page| <= |rows|
    ensures forall k :: 0 <= k < |page| ==> page[k] == rows[(p - 1) * ItemsPerPage + k]
  {
    var start := (p - 1) * ItemsPerPage;
    var end := start + ItemsPerPage;
    rows[start..if end < |rows| then end else |rows|]
  }

  /** What the list shows: the chosen page when there is more than one page,
      otherwise the whole (at most ten-element) list. */
  function Shown<T>(rows: seq<T>, p: nat): (shown: seq<T>)
    requires |rows| > 0
    requires TotalPages(|rows|) > 1 ==> 1 <= p <= TotalPages(|rows|)
    ensures TotalPages(|rows|) == 1 ==> shown == Page(rows, 1)
    ensures TotalPages(|rows|) > 1 ==> shown == Page(rows, p)
  {
    if TotalPages(|rows|) > 1 then Page(rows, p) else rows
  }

  /** The pages in order: the list cut into consecutive runs of ten. */
  function Pages<T>(rows: seq<T>): seq<seq<T>>
    decreases |rows|
  {
    if |rows| <= ItemsPerPage then [rows]
    else [rows[..ItemsPerPage]] + Pages(rows[ItemsPerPage..])
  }

  function Concat<T>(pages: seq<seq<T>>): seq<T> {
    if |pages| == 0 then [] else pages[0] + Concat(pages[1..])
  }

  /** There are `TotalPages` pages, page `p` of them is `Page(rows, p)`, and
      reading pages 1 to `TotalPages` in turn gives back the whole list. */
  lemma {:induction false} PagesPartitionList<T>(rows: seq<T>)
    requires |rows| > 0
    ensures |Pages(rows)| == TotalPages(|rows|)
    ensures forall p :: 1 <= p <= TotalPages(|rows|) ==> Pages(rows)[p - 1] == Page(rows, p)
    ensures Concat(Pages(rows)) == rows
    decreases |rows|
  {
    if |rows| <= ItemsPerPage {
      assert Concat(Pages(rows)[1..]) == [];
      assert rows + [] == rows;
    } else {
      var rest := rows[ItemsPerPage..];
      PagesPartitionList(rest);
      assert TotalPages(|rows|) == TotalPages(|rest|) + 1;
      assert Pages(rows)[1..] == Pages(rest);
      forall p | 1 <= p <= TotalPages(|rows|)
        ensures Pages(rows)[p - 1] == Page(rows, p)
      {
        if p > 1 {
          PageOfRest(rows, p);
        }
      }
      assert rows == rows[..ItemsPerPage] + rest;
    }
  }

  /** Past the first page, page `p` of the list is page `p - 1` of the rest. */
  lemma PageOfRest<T>(rows: seq<T>, p: nat)
    requires |rows| > ItemsPerPage && 2 <= p <= TotalPages(|rows|)
    ensures TotalPages(|rows|) == TotalPages(|rows| - ItemsPerPage) + 1
    ensures Page(rows, p) == Page(rows[ItemsPerPage..], p - 1)
  {
    var rest := rows[ItemsPerPage..];
    var a, b := Page(rows, p), Page(rest, p - 1);
    var start := (p - 2) * ItemsPerPage;
    assert (p - 1) * ItemsPerPage == start + ItemsPerPage;
    assert |a| == |b|;
    forall k | 0 <= k < |a| ensures a[k] == b[k] {
      assert rest[start + k] == rows[start + ItemsPerPage + k];
    }
  }
}

=== FILE: query.dfy ===
/**
  The review list query (`get_book_reviews`): an inner join with `genres`, a
  `WHERE 1=1` extended by one clause per criterion that is set, and an
  optional `ORDER BY` on a single column with no tie-break.
 */
module Query {
  import opened Wrappers
  import opened Text
  import opened Records
  import opened Sorting

  /** The four `sort_by` values that add an `ORDER BY`; any other value adds none. */
  datatype SortKey = DateDesc | DateAsc | TitleAsc | RatingDesc | Unordered

  function ParseSortKey(s: string): (k: SortKey)
    ensures s == "date_desc" <==> k == DateDesc
    ensures s == "date_asc" <==> k == DateAsc
    ensures s == "title" <==> k == TitleAsc
    ensures s == "rating_desc" <==> k == RatingDesc
  {
    if s == "date_desc" then DateDesc
    else if s == "date_asc" then DateAsc
    else if s == "title" then TitleAsc
    else if s == "rating_desc" then RatingDesc
    else Unordered
  }

  /** The keyword arguments of `get_book_reviews`; `None` leaves a criterion unset. */
  datatype Criteria = Criteria(
    genreId: Option<int>,
    startDate: Option<Date>,
    endDate: Option<Date>,
    search: Option<string>,
    sortBy: string)

  /** One `AND` fragment of the generated `WHERE` clause. */
  datatype Clause =
    | GenreIs(id: int)                 // br.genre_id = ?
    | ReadOnOrAfter(from: Date)        // br.read_date >= ?
    | ReadOnOrBefore(until: Date)      // br.read_date <= ?
    | TitleOrAuthorLike(text: string)  // (br.title LIKE ? OR br.author LIKE ?), with %text%

  /** `field LIKE '%text%'`: SQLite folds ASCII letters only. */
  predicate Like(field: string, text: string) {
    Contains(AsciiLower(field), AsciiLower(text))
  }

  predicate Holds(clause: Clause, row: Row) {
    match clause
    case GenreIs(id) => row.review.genreId == id
    case ReadOnOrAfter(from) => DateLe(from, row.review.readDate)
    case ReadOnOrBefore(until) => DateLe(row.review.readDate, until)
    case TitleOrAuthorLike(text) => Like(row.review.title, text) || Like(row.review.author, text)
  }

  /** The clauses appended in order; Python truthiness decides what is set,
      so a genre id of 0 and an empty search string add nothing. */
  function Clauses(c: Criteria): seq<Clause> {
    (if c.genreId.Some? && c.genreId.value != 0 then [GenreIs(c.genreId.value)] else [])
    + (if c.startDate.Some? then [ReadOnOrAfter(c.startDate.value)] else [])
    + (if c.endDate.Some? then [ReadOnOrBefore(c.endDate.value)] else [])
    + (if c.search.Some? && c.search.value != "" then [TitleOrAuthorLike(c.search.value)] else [])
  }

  predicate HoldsAll(clauses: seq<Clause>, row: Row) {
    forall k :: 0 <= k < |clauses| ==> Holds(clauses[k], row)
  }

  /** The rows the `WHERE` clause keeps, in join order. */
  function Where(rows: seq<Row>, clauses: seq<Clause>): (r: seq<Row>)
    ensures |r| <= |rows|
    ensures forall row :: row in r <==> row in rows && HoldsAll(clauses, row)
    ensures forall x :: multiset(r)[x] == if HoldsAll(clauses, x) then multiset(rows)[x] else 0
  {
    if |rows| == 0 then []
    else
      var rest := Where(rows[1..], clauses);
      assert rows == [rows[0]] + rows[1..];
      if HoldsAll(clauses, rows[0]) then [rows[0]] + rest else rest
  }

  /** The filter as a reader of the form understands it: every criterion
      that is set holds, and unset ones impose nothing. */
  predicate Matches(c: Criteria, row: Row) {
    && (c.genreId.Some? && c.genreId.value != 0 ==> row.review.genreId == c.genreId.value)
    && (c.startDate.Some? ==> DateLe(c.startDate.value, row.review.readDate))
    && (c.endDate.Some? ==> DateLe(row.review.readDate, c.endDate.value))
    && (c.search.Some? && c.search.value != "" ==>
          Like(row.review.title, c.search.value) || Like(row.review.author, c.search.value))
  }

  lemma HoldsAllConcat(a: seq<Clause>, b: seq<Clause>, row: Row)
    ensures HoldsAll(a + b, row) <==> HoldsAll(a, row) && HoldsAll(b, row)
  {
    if HoldsAll(a + b, row) {
      forall k | 0 <= k < |a| ensures Holds(a[k], row) { assert (a + b)[k] == a[k]; }
      forall k | 0 <= k < |b| ensures Holds(b[k], row) { assert (a + b)[|a| + k] == b[k]; }
    }
  }

  /** The conjunction of the generated clauses is exactly the intended filter. */
  lemma ClausesMeanMatches(c: Criteria, row: Row)
    ensures HoldsAll(Clauses(c), row) <==> Matches(c, row)
  {
    var g := if c.genreId.Some? && c.genreId.value != 0 then [GenreIs(c.genreId.value)] else [];
    var f := if c.startDate.Some? then [ReadOnOrAfter(c.startDate.value)] else [];
    var u := if c.endDate.Some? then [ReadOnOrBefore(c.endDate.value)] else [];
    var q := if c.search.Some? && c.search.value != "" then [TitleOrAuthorLike(c.search.value)] else [];
    assert Clauses(c) == g + f + u + q;
    HoldsAllConcat(g + f + u, q, row);
    HoldsAllConcat(g + f, u, row);
    HoldsAllConcat(g, f, row);
    assert |g| == 1 ==> g[0] == GenreIs(c.genreId.value);
    assert |f| == 1 ==> f[0] == ReadOnOrAfter(c.startDate.value);
    assert |u| == 1 ==> u[0] == ReadOnOrBefore(c.endDate.value);
    assert |q| == 1 ==> q[0] == TitleOrAuthorLike(c.search.value);
  }

  // ---------------------------------------------------------------------------
  // ORDER BY

  /** SQLite orders NULL below every integer, so `ORDER BY rating DESC`
      puts unrated reviews last. */
  predicate RatingLe(a: Option<int>, b: Option<int>) {
    match a
    case None => true
    case Some(x) => b.Some? && x <= b.value
  }

  /** "`a` may be listed before `b`" under the sort key. */
  function Precedes(key: SortKey): (Row, Row) -> bool {
    match key
    case DateDesc => (a: Row, b: Row) => DateLe(b.review.readDate, a.review.readDate)
    case DateAsc => (a: Row, b: Row) => DateLe(a.review.readDate, b.review.readDate)
    case TitleAsc => (a: Row, b: Row) => StrLe(a.review.title, b.review.title)
    case RatingDesc => (a: Row, b: Row) => RatingLe(b.review.rating, a.review.rating)
    case Unordered => (a: Row, b: Row) => true
  }

  lemma PrecedesIsTotalPreorder(key: SortKey)
    ensures TotalPreorder(Precedes(key))
  {
    if key == TitleAsc {
      forall a: Row, b: Row ensures StrLe(a.review.title, b.review.title) || StrLe(b.review.title, a.review.title) {
        StrLeTotal(a.review.title, b.review.title);
      }
      forall a: Row, b: Row, c: Row | StrLe(a.review.title, b.review.title) && StrLe(b.review.title, c.review.title)
        ensures StrLe(a.review.title, c.review.title)
      {
        StrLeTransitive(a.review.title, b.review.title, c.review.title);
      }
    }
  }

  /** Any admissible answer of the database: the filtered join rows, each
      exactly as often as the join yields it, ordered by the sort key with
      ties in any order. */
  ghost predicate IsAnswer(reviews: seq<Review>, genres: seq<Genre>, c: Criteria, out: seq<Row>) {
    && multiset(out) == multiset(Where(Join(reviews, genres), Clauses(c)))
    && SortedBy(out, Precedes(ParseSortKey(c.sortBy)))
  }

  /** What sortedness under the parsed key means for each `sort_by` string. */
  lemma SortedUnderKey(out: seq<Row>, sortBy: string)
    requires SortedBy(out, Precedes(ParseSortKey(sortBy)))
    ensures sortBy == "date_desc" ==>
      forall i, j :: 0 <= i < j < |out| ==> DateLe(out[j].review.readDate, out[i].review.readDate)
    ensures sortBy == "date_asc" ==>
      forall i, j :: 0 <= i < j < |out| ==> DateLe(out[i].review.readDate, out[j].review.readDate)
    ensures sortBy == "title" ==>
      forall i, j :: 0 <= i < j < |out| ==> StrLe(out[i].review.title, out[j].review.title)
    ensures sortBy == "rating_desc" ==>
      forall i, j :: 0 <= i < j < |out| ==> RatingLe(out[j].review.rating, out[i].review.rating)
    ensures sortBy == "rating_desc" ==>
      forall i, j :: 0 <= i < |out| && 0 <= j < |out| && out[i].review.rating.Some? && out[j].review.rating.None? ==> i < j
  {
  }

  /** The filtered join holds a row exactly when its review is stored, its
      genre resolves and it meets the criteria; it is no longer than the
      review table. */
  lemma KeptRows(reviews: seq<Review>, genres: seq<Genre>, c: Criteria)
    ensures forall row :: row in Where(Join(reviews, genres), Clauses(c)) <==>
              row.review in reviews && Resolves(genres, row) && Matches(c, row)
    ensures |Where(Join(reviews, genres), Clauses(c))| <= |reviews|
  {
    forall row ensures HoldsAll(Clauses(c), row) <==> Matches(c, row) {
      ClausesMeanMatches(c, row);
    }
  }

  /** `get_book_reviews`: one admissible answer (ties keep join order). */
  function GetBookReviews(reviews: seq<Review>, genres: seq<Genre>, c: Criteria): (out: seq<Row>)
    ensures IsAnswer(reviews, genres, c, out)
    ensures forall row :: row in out <==> row.review in reviews && Resolves(genres, row) && Matches(c, row)
    ensures |out| <= |reviews|
    ensures c.sortBy == "date_desc" ==>
      forall i, j :: 0 <= i < j < |out| ==> DateLe(out[j].review.readDate, out[i].review.readDate)
    ensures c.sortBy == "date_asc" ==>
      forall i, j :: 0 <= i < j < |out| ==> DateLe(out[i].review.readDate, out[j].review.readDate)
    ensures c.sortBy == "title" ==>
      forall i, j :: 0 <= i < j < |out| ==> StrLe(out[i].review.title, out[j].review.title)
    ensures c.sortBy == "rating_desc" ==>
      forall i, j :: 0 <= i < j < |out| ==> RatingLe(out[j].review.rating, out[i].review.rating)
    ensures c.sortBy == "rating_desc" ==>
      forall i, j :: 0 <= i < |out| && 0 <= j < |out| && out[i].review.rating.Some? && out[j].review.rating.None? ==> i < j
  {
    var key := ParseSortKey(c.sortBy);
    PrecedesIsTotalPreorder(key);
    var out := Sort(Where(Join(reviews, genres), Clauses(c)), Precedes(key));
    KeptRows(reviews, genres, c);
    assert forall row :: row in out <==> row in multiset(out);
    assert |out| == |multiset(out)|;
    SortedUnderKey(out, c.sortBy);
    out
  }
}

=== FILE: records.dfy ===
/**
  The stored entities of the reading log: genres, book reviews, and the rows
  a query returns after joining each review with its genre.
 */
module Records {
  import opened Wrappers

  /** A calendar date. Dates are stored as ISO `YYYY-MM-DD` text, so SQLite's
      string comparison of two dates is the lexicographic order on the triple. */
  datatype Date = Date(year: int, month: int, day: int)

  predicate DateLe(a: Date, b: Date) {
    || a.year < b.year
    || (a.year == b.year && (a.month < b.month || (a.month == b.month && a.day <= b.day)))
  }

  /** A row of the `genres` table. Its `id` is the primary key, so ids are unique. */
  datatype Genre = Genre(id: int, name: string, isActive: bool)

  /** A row of the `book_reviews` table; `rating` is NULL (None) when unrated. */
  datatype Review = Review(
    id: int,
    title: string,
    author: string,
    readDate: Date,
    genreId: int,
    content: string,
    rating: Option<int>)

  /** A review joined with the name of its genre (`g.name as genre_name`). */
  datatype Row = Row(review: Review, genreName: string)

  ghost predicate UniqueGenreIds(genres: seq<Genre>) {
    forall i, j :: 0 <= i < j < |genres| ==> genres[i].id != genres[j].id
  }

  /** The genre row whose primary key is `id`, if there is one. */
  function FindGenre(genres: seq<Genre>, id: int): (r: Option<Genre>)
    ensures r.Some? ==> r.value in genres && r.value.id == id
    ensures r.None? <==> forall g :: g in genres ==> g.id != id
    ensures UniqueGenreIds(genres) ==> forall g :: g in genres && g.id == id ==> r == Some(g)
  {
    if |genres| == 0 then None
    else if genres[0].id == id then Some(genres[0])
    else FindGenre(genres[1..], id)
  }

  /** The review's genre resolves and `row` carries that genre's name. */
  predicate Resolves(genres: seq<Genre>, row: Row) {
    var g := FindGenre(genres, row.review.genreId);
    g.Some? && g.value.name == row.genreName
  }

  /** `FROM book_reviews br JOIN genres g ON br.genre_id = g.id`: reviews whose
      genre id matches no genre row are dropped; `is_active` is not consulted. */
  function Join(reviews: seq<Review>, genres: seq<Genre>): (rows: seq<Row>)
    ensures |rows| <= |reviews|
    ensures forall row :: row in rows <==> row.review in reviews && Resolves(genres, row)
    ensures |rows| == |reviews| <==> forall r :: r in reviews ==> FindGenre(genres, r.genreId).Some?
  {
    if |reviews| == 0 then []
    else
      var rest := Join(reviews[1..], genres);
      assert forall r :: r in reviews <==> r == reviews[0] || r in reviews[1..];
      match FindGenre(genres, reviews[0].genreId)
      case None => rest
      case Some(g) => [Row(reviews[0], g.name)] + rest
  }

  /** Projection back to the reviews, in order. */
  function ReviewsOf(rows: seq<Row>): (rs: seq<Review>)
    ensures |rs| == |rows|
    ensures forall k :: 0 <= k < |rows| ==> rs[k] == rows[k].review
  {
    seq(|rows|, k requires 0 <= k < |rows| => rows[k].review)
  }

  /** The join is on the key `genres.id`: every review whose genre resolves
      comes out exactly as often as it is stored, and no other review at all. */
  lemma {:induction false} JoinMultiplicity(reviews: seq<Review>, genres: seq<Genre>)
    ensures forall r :: multiset(ReviewsOf(Join(reviews, genres)))[r] ==
              if FindGenre(genres, r.genreId).Some? then multiset(reviews)[r] else 0
  {
    if |reviews| > 0 {
      var x := reviews[0];
      var front := if FindGenre(genres, x.genreId).Some? then [x] else [];
      var tail := ReviewsOf(Join(reviews[1..], genres));
      JoinMultiplicity(reviews[1..], genres);
      JoinStep(reviews, genres);
      assert multiset(reviews) == multiset{x} + multiset(reviews[1..]) by {
        assert reviews == [x] + reviews[1..];
      }
      var whole := multiset(ReviewsOf(Join(reviews, genres)));
      assert whole == multiset(front) + multiset(tail);
      forall r ensures whole[r] == if FindGenre(genres, r.genreId).Some? then multiset(reviews)[r] else 0 {
        assert whole[r] == multiset(front)[r] + multiset(tail)[r];
        assert multiset(reviews)[r] == multiset{x}[r] + multiset(reviews[1..])[r];
      }
    }
  }

  /** One step of the join, seen through the reviews it yields. */
  lemma JoinStep(reviews: seq<Review>, genres: seq<Genre>)
    requires |reviews| > 0
    ensures ReviewsOf(Join(reviews, genres)) ==
      (if FindGenre(genres, reviews[0].genreId).Some? then [reviews[0]] else []) + ReviewsOf(Join(reviews[1..], genres))
  {
    var rest := Join(reviews[1..], genres);
    match FindGenre(genres, reviews[0].genreId)
    case None =>
      assert [] + ReviewsOf(rest) == ReviewsOf(rest);
    case Some(g) =>
      assert ReviewsOf([Row(reviews[0], g.name)] + rest) == [reviews[0]] + ReviewsOf(rest);
  }

  /** A review whose genre has been deleted outright never appears in a result. */
  lemma DanglingReviewExcluded(reviews: seq<Review>, genres: seq<Genre>, r: Review)
    requires forall g :: g in genres ==> g.id != r.genreId
    ensures forall row :: row in Join(reviews, genres) ==> row.review != r
  {
  }
}

=== FILE: reports.dfy ===
/**
  The two summaries the application shows: the statistics dashboard, computed
  from the joined review list, and the header of the analysis report, whose
  total and mean come from the raw review table while its genre table comes
  from the join.
 */
module Reports {
  import opened Wrappers
  import opened Records
  import opened Stats
  import opened GenreStats

  /** The four metrics, the trend and the detail table of the statistics tab. */
  datatype Dashboard = Dashboard(
    total: nat,
    meanRating: Option<real>,
    mostRead: Option<string>,
    latest: Option<Date>,
    trend: seq<Bucket>,
    genres: seq<GenreStat>)

  /** `read_date.max()` of the joined list; `None` when it is empty. */
  function LatestOf(rows: seq<Row>): (latest: Option<Date>)
    ensures latest.None? <==> |rows| == 0
    ensures latest.Some? ==> forall row :: row in rows ==> DateLe(row.review.readDate, latest.value)
    ensures latest.Some? ==> exists row :: row in rows && row.review.readDate == latest.value
  {
    var rs := ReviewsOf(rows);
    if |rs| == 0 then None
    else
      var l := LatestReadDate(rs);
      assert forall row :: row in rows ==> row.review in rs by {
        forall row | row in rows ensures row.review in rs {
          var k :| 0 <= k < |rows| && rows[k] == row;
          assert rs[k] == row.review;
        }
      }
      var r :| r in rs && r.readDate == l;
      var k :| 0 <= k < |rs| && rs[k] == r;
      assert rows[k] in rows;
      Some(l)
  }

  /** The tab's mode and the first line of its genre table name the same genre. */
  lemma TableLeadsWithMode(rows: seq<Row>)
    ensures MostReadGenre(rows) == ReportMostRead(GenreTable(rows))
  {
    if |rows| > 0 {
      GenreTableAgreesWithMode(rows);
    } else {
      TableSumsToTotal(rows, GenreTable(rows));
    }
  }

  /** The statistics tab over the joined review list (empty: "독후감 데이터가 없습니다."). */
  function DashboardOf(rows: seq<Row>): (d: Dashboard)
    ensures d.total == |rows|
    ensures d.total == 0 <==> d.mostRead.None? && d.latest.None?
    ensures d.meanRating == MeanRating(ReviewsOf(rows))
    ensures d.mostRead.Some? ==> IsFirstMode(rows, d.mostRead.value)
    ensures d.latest.Some? ==> forall row :: row in rows ==> DateLe(row.review.readDate, d.latest.value)
    ensures d.latest.Some? ==> exists row :: row in rows && row.review.readDate == d.latest.value
    ensures IsGenreTable(rows, d.genres) && Sum(d.genres) == d.total
    ensures Chronological(d.trend) && Total(d.trend) == d.total
    ensures NonEmptyBuckets(d.trend) && forall m :: CountFor(d.trend, m) == ReadIn(ReviewsOf(rows), m)
    ensures d.mostRead == ReportMostRead(d.genres)
  {
    TableLeadsWithMode(rows);
    var rs := ReviewsOf(rows);
    Dashboard(|rows|, MeanRating(rs), MostReadGenre(rows), LatestOf(rows), MonthlyTrend(rs), GenreTable(rows))
  }

  /** The summary at the head of the analysis report. */
  datatype ReportHeader = ReportHeader(
    total: nat,
    meanRating: Option<real>,
    mostRead: Option<string>,
    genres: seq<GenreStat>)

  /** The report over the raw review table: the total and the mean count every
      review, the genre table only those whose genre resolves. */
  function ReportHeaderOf(reviews: seq<Review>, genres: seq<Genre>): (h: ReportHeader)
    ensures h.total == |reviews|
    ensures h.meanRating == MeanRating(reviews)
    ensures IsGenreTable(Join(reviews, genres), h.genres)
    ensures h.mostRead == ReportMostRead(h.genres)
    ensures Sum(h.genres) <= h.total
    ensures Sum(h.genres) == h.total <==> forall r :: r in reviews ==> FindGenre(genres, r.genreId).Some?
  {
    var t := GenreTable(Join(reviews, genres));
    ReportHeader(|reviews|, MeanRating(reviews), ReportMostRead(t), t)
  }

  /** The report's total and the dashboard's agree exactly when no review
      points at a genre that is missing. */
  lemma TotalsAgreeIffGenresResolve(reviews: seq<Review>, genres: seq<Genre>)
    ensures ReportHeaderOf(reviews, genres).total == DashboardOf(Join(reviews, genres)).total
            <==> forall r :: r in reviews ==> FindGenre(genres, r.genreId).Some?
  {
  }

  /** The report names the dashboard's most-read genre whenever one genre
      leads outright; this model's tie-break makes them agree on ties too. */
  lemma ReportNamesDashboardGenre(reviews: seq<Review>, genres: seq<Genre>)
    ensures ReportHeaderOf(reviews, genres).mostRead == DashboardOf(Join(reviews, genres)).mostRead
  {
  }
}

=== FILE: sentiment.dfy ===
/**
  The rule-based sentiment of a review text (`analyze_sentiment`): count the
  lexicon entries of each polarity that occur in the lower-cased text and let
  the larger count win.
 */
module Sentiment {
  import opened Text

  const PositiveWords: seq<string> :=
    ["좋다", "만족", "훌륭", "최고", "감사", "좋은", "훌륭한", "최고의", "추천", "완벽"]

  const NegativeWords: seq<string> :=
    ["나쁘다", "불만", "문제", "최악", "실망", "나쁜", "최악의", "불만족", "문제가", "어려움"]

  datatype Sentiment = Positive | Negative | Neutral {
    /** The label stored and shown for this sentiment. */
    function Label(): string {
      match this
      case Positive => "긍정"
      case Negative => "부정"
      case Neutral => "중립"
    }
  }

  /** How many entries of `lexicon` occur in `text`; an entry listed twice
      counts twice, and an entry inside another entry counts on its own. */
  function Hits(text: string, lexicon: seq<string>): (n: nat)
    ensures n <= |lexicon|
    ensures n == 0 <==> forall w :: w in lexicon ==> !Contains(text, w)
  {
    if |lexicon| == 0 then 0
    else
      var init, last := lexicon[..|lexicon| - 1], lexicon[|lexicon| - 1];
      assert forall w :: w in lexicon <==> w in init || w == last;
      Hits(text, init) + (if Contains(text, last) then 1 else 0)
  }

  /** The positions of the lexicon whose entry occurs in `text`. */
  ghost function HitPositions(text: string, lexicon: seq<string>): set<int> {
    set i | 0 <= i < |lexicon| && Contains(text, lexicon[i])
  }

  /** `sum(1 for word in lexicon if word in text)` counts the positions that hit. */
  lemma {:induction false} HitsCountsPositions(text: string, lexicon: seq<string>)
    ensures Hits(text, lexicon) == |HitPositions(text, lexicon)|
  {
    if |lexicon| > 0 {
      var n := |lexicon| - 1;
      var init := lexicon[..n];
      HitsCountsPositions(text, init);
      var earlier := HitPositions(text, init);
      if Contains(text, lexicon[n]) {
        assert HitPositions(text, lexicon) == earlier + {n};
        assert n !in earlier;
      } else {
        assert HitPositions(text, lexicon) == earlier;
      }
    }
  }

  /** No ASCII letter: lower-casing cannot touch any character of `w`, nor
      turn a character of the text into one of `w`'s. */
  predicate NoAsciiLetter(w: string) {
    forall k :: 0 <= k < |w| ==> !('A' <= w[k] <= 'Z') && !('a' <= w[k] <= 'z')
  }

  /** For a word without ASCII letters, lower-casing the text neither creates
      nor destroys an occurrence. */
  lemma LowerKeepsOccurrence(text: string, w: string)
    requires NoAsciiLetter(w)
    ensures Contains(AsciiLower(text), w) <==> Contains(text, w)
  {
    var low := AsciiLower(text);
    ContainsIffOccurs(low, w);
    ContainsIffOccurs(text, w);
    forall i | 0 <= i && i + |w| <= |text|
      ensures OccursAt(low, w, i) <==> OccursAt(text, w, i)
    {
      if OccursAt(low, w, i) {
        forall k | 0 <= k < |w| ensures text[i + k] == w[k] {
          assert low[i + k] == w[k];
        }
        assert text[i..i + |w|] == w;
      }
      if OccursAt(text, w, i) {
        forall k | 0 <= k < |w| ensures low[i + k] == w[k] {
          assert text[i + k] == w[k];
        }
        assert low[i..i + |w|] == w;
      }
    }
  }

  lemma {:induction false} LowerKeepsHits(text: string, lexicon: seq<string>)
    requires forall w :: w in lexicon ==> NoAsciiLetter(w)
    ensures Hits(AsciiLower(text), lexicon) == Hits(text, lexicon)
  {
    if |lexicon| > 0 {
      var n := |lexicon| - 1;
      assert lexicon[n] in lexicon;
      LowerKeepsOccurrence(text, lexicon[n]);
      LowerKeepsHits(text, lexicon[..n]);
    }
  }

  lemma LexiconsHaveNoAsciiLetter()
    ensures forall w :: w in PositiveWords ==> NoAsciiLetter(w)
    ensures forall w :: w in NegativeWords ==> NoAsciiLetter(w)
  {
  }

  /** `analyze_sentiment`. The text is lower-cased first, but since no lexicon
      entry has a letter with case, the verdict is the same as on the raw text. */
  function Analyze(text: string): (s: Sentiment)
    ensures s == Positive <==> Hits(text, PositiveWords) > Hits(text, NegativeWords)
    ensures s == Negative <==> Hits(text, NegativeWords) > Hits(text, PositiveWords)
    ensures s == Neutral <==> Hits(text, PositiveWords) == Hits(text, NegativeWords)
  {
    var lower := AsciiLower(text);
    LexiconsHaveNoAsciiLetter();
    LowerKeepsHits(text, PositiveWords);
    LowerKeepsHits(text, NegativeWords);
    var positive := Hits(lower, PositiveWords);
    var negative := Hits(lower, NegativeWords);
    if positive > negative then Positive
    else if negative > positive then Negative
    else Neutral
  }

  /** A text with positive vocabulary and no negative vocabulary is positive;
      a text with neither is neutral. */
  lemma OneSidedTexts(text: string)
    ensures ((exists w :: w in PositiveWords && Contains(text, w)) &&
             (forall w :: w in NegativeWords ==> !Contains(text, w))) ==> Analyze(text) == Positive
    ensures ((exists w :: w in NegativeWords && Contains(text, w)) &&
             (forall w :: w in PositiveWords ==> !Contains(text, w))) ==> Analyze(text) == Negative
    ensures (forall w :: w in PositiveWords + NegativeWords ==> !Contains(text, w)) ==> Analyze(text) == Neutral
  {
  }

  /** An occurrence survives appending text on either side. */
  lemma {:induction false} ContainsExtends(s: string, w: string, before: string, after: string)
    requires Contains(s, w)
    ensures Contains(before + s + after, w)
  {
    ContainsIffOccurs(s, w);
    var i :| OccursAt(s, w, i);
    var t := before + s + after;
    assert t[|before| + i..|before| + i + |w|] == s[i..i + |w|];
    assert OccursAt(t, w, |before| + i);
    ContainsIffOccurs(t, w);
  }

  /** Surrounding a text with more text never lowers its count for a lexicon. */
  lemma {:induction false} HitsGrowWithText(text: string, before: string, after: string, lexicon: seq<string>)
    ensures Hits(text, lexicon) <= Hits(before + text + after, lexicon)
  {
    if |lexicon| > 0 {
      var n := |lexicon| - 1;
      HitsGrowWithText(text, before, after, lexicon[..n]);
      if Contains(text, lexicon[n]) {
        ContainsExtends(text, lexicon[n], before, after);
      }
    }
  }

  /** "최고의" contains "최고", so one occurrence of "최고의" already scores two
      positive hits (and "최악의", two negative ones). */
  lemma NestedEntriesCountTwice(text: string)
    ensures Contains(text, "최고의") ==> Hits(text, PositiveWords) >= 2
    ensures Contains(text, "최악의") ==> Hits(text, NegativeWords) >= 2
  {
    if Contains(text, "최고의") {
      assert "최고" + "의" == "최고의";
      PrefixOccurs(text, "최고", "의");
      HitsCountsPositions(text, PositiveWords);
      assert {3, 7} <= HitPositions(text, PositiveWords);
      SubsetSize({3, 7}, HitPositions(text, PositiveWords));
    }
    if Contains(text, "최악의") {
      assert "최악" + "의" == "최악의";
      PrefixOccurs(text, "최악", "의");
      HitsCountsPositions(text, NegativeWords);
      assert {3, 6} <= HitPositions(text, NegativeWords);
      SubsetSize({3, 6}, HitPositions(text, NegativeWords));
    }
  }

  lemma PrefixOccurs(text: string, w: string, x: string)
    requires Contains(text, w + x)
    ensures Contains(text, w)
  {
    ContainsIffOccurs(text, w + x);
    var i :| OccursAt(text, w + x, i);
    assert text[i..i + |w|] == (w + x)[..|w|];
    assert OccursAt(text, w, i);
    ContainsIffOccurs(text, w);
  }

  lemma SubsetSize(a: set<int>, b: set<int>)
    requires a <= b
    ensures |a| <= |b|
  {
    assert b == a + (b - a);
  }
}

=== FILE: sorting.dfy ===
/**
  Sorting a sequence by a total preorder `le` ("may come before"). An
  `ORDER BY` or a Python `sorted` with a key is modelled by choosing `le`;
  keys that compare equal are left in an order the caller must not rely on
  unless `le` itself breaks the tie.
 */
module Sorting {

  /** `le` relates every pair one way or the other and is transitive. */
  ghost predicate TotalPreorder<T(!new)>(le: (T, T) -> bool) {
    && (forall a, b :: le(a, b) || le(b, a))
    && (forall a, b, c :: le(a, b) && le(b, c) ==> le(a, c))
  }

  /** Every element may come before every later one. */
  ghost predicate SortedBy<T>(s: seq<T>, le: (T, T) -> bool) {
    forall i, j :: 0 <= i < j < |s| ==> le(s[i], s[j])
  }

  /** Places `x` in front of the first element it may precede. */
  function Insert<T(!new)>(x: T, s: seq<T>, le: (T, T) -> bool): (r: seq<T>)
    requires TotalPreorder(le) && SortedBy(s, le)
    ensures SortedBy(r, le)
    ensures multiset(r) == multiset(s) + multiset{x}
  {
    if |s| == 0 || le(x, s[0]) then
      [x] + s
    else
      var tail := Insert(x, s[1..], le);
      assert s == [s[0]] + s[1..];
      assert forall y :: y in tail ==> y in multiset(tail);
      assert forall y :: y in tail ==> le(s[0], y);
      [s[0]] + tail
  }

  /** Insertion sort: a sorted permutation of `s`. */
  function Sort<T(!new)>(s: seq<T>, le: (T, T) -> bool): (r: seq<T>)
    requires TotalPreorder(le)
    ensures SortedBy(r, le)
    ensures multiset(r) == multiset(s)
  {
    if |s| == 0 then []
    else
      assert s == [s[0]] + s[1..];
      Insert(s[0], Sort(s[1..], le), le)
  }

  /** No element occurs twice. */
  ghost predicate Distinct<T>(s: seq<T>) {
    forall i, j :: 0 <= i < j < |s| ==> s[i] != s[j]
  }

  lemma {:induction false} DistinctOccursOnce<T>(s: seq<T>, x: T)
    requires Distinct(s)
    ensures multiset(s)[x] <= 1
  {
    if |s| > 0 {
      assert s == [s[0]] + s[1..];
      assert Distinct(s[1..]);
      DistinctOccursOnce(s[1..], x);
      if x == s[0] {
        assert x !in s[1..];
      }
    }
  }

  /** A permutation of a sequence without repetitions has none either. */
  lemma DistinctPermutation<T>(a: seq<T>, b: seq<T>)
    requires multiset(a) == multiset(b) && Distinct(a)
    ensures Distinct(b)
  {
    forall i, j | 0 <= i < j < |b|
      ensures b[i] != b[j]
    {
      if b[i] == b[j] {
        assert b == b[..j] + b[j..];
        assert b[i] in b[..j] && b[j] in b[j..];
        assert multiset(b)[b[i]] == multiset(b[..j])[b[i]] + multiset(b[j..])[b[i]];
        DistinctOccursOnce(a, b[i]);
      }
    }
  }

  /** Two sequences without repetitions holding the same elements are
      permutations of each other. */
  lemma DistinctSameElements<T>(a: seq<T>, b: seq<T>)
    requires Distinct(a) && Distinct(b)
    requires forall x :: x in a <==> x in b
    ensures multiset(a) == multiset(b)
  {
    forall x ensures multiset(a)[x] == multiset(b)[x] {
      DistinctOccursOnce(a, x);
      DistinctOccursOnce(b, x);
      assert x in a <==> x in multiset(a);
      assert x in b <==> x in multiset(b);
    }
  }
}

=== FILE: stats.dfy ===
/**
  The review statistics shown on the statistics tab and the dashboard, and
  summarised in the reports: counts, the mean rating over rated reviews,
  the most recent read date and the monthly reading trend.
 */
module Stats {
  import opened Wrappers
  import opened Records

  // ---------------------------------------------------------------------------
  // Ratings. pandas `mean()` and SQL `AVG` both skip missing ratings; with no
  // rating at all the result is NaN/NULL, which the screens show as "평점 없음".

  function RatedCount(rs: seq<Review>): (n: nat)
    ensures n <= |rs|
    ensures n == 0 <==> forall r :: r in rs ==> r.rating.None?
  {
    if |rs| == 0 then 0
    else
      assert forall r :: r in rs <==> r in rs[..|rs| - 1] || r == rs[|rs| - 1];
      RatedCount(rs[..|rs| - 1]) + (if rs[|rs| - 1].rating.Some? then 1 else 0)
  }

  function RatingSum(rs: seq<Review>): int {
    if |rs| == 0 then 0
    else RatingSum(rs[..|rs| - 1]) + rs[|rs| - 1].rating.GetOr(0)
  }

  ghost predicate RatingsInRange(rs: seq<Review>) {
    forall r :: r in rs && r.rating.Some? ==> 1 <= r.rating.value <= 5
  }

  lemma {:induction false} RatingSumBounds(rs: seq<Review>)
    requires RatingsInRange(rs)
    ensures RatedCount(rs) <= RatingSum(rs) <= 5 * RatedCount(rs)
  {
    if |rs| > 0 {
      var init := rs[..|rs| - 1];
      assert forall r :: r in init ==> r in rs;
      RatingSumBounds(init);
    }
  }

  /** The mean rating: the sum over rated reviews divided by their number,
      or `None` ("undefined") when no review is rated. */
  function MeanRating(rs: seq<Review>): (mean: Option<real>)
    ensures mean.None? <==> forall r :: r in rs ==> r.rating.None?
    ensures mean.Some? ==> mean.value * RatedCount(rs) as real == RatingSum(rs) as real
    ensures mean.Some? && RatingsInRange(rs) ==> 1.0 <= mean.value <= 5.0
  {
    var n := RatedCount(rs);
    if n == 0 then None
    else
      var m := RatingSum(rs) as real / n as real;
      MeanOfRated(rs);
      Some(m)
  }

  /** The quotient times the rated count gives back the sum, and it lies in
      the rating range when every rating does. */
  lemma MeanOfRated(rs: seq<Review>)
    requires RatedCount(rs) > 0
    ensures (RatingSum(rs) as real / RatedCount(rs) as real) * RatedCount(rs) as real == RatingSum(rs) as real
    ensures RatingsInRange(rs) ==> 1.0 <= RatingSum(rs) as real / RatedCount(rs) as real <= 5.0
  {
    var s, n := RatingSum(rs) as real, RatedCount(rs) as real;
    assert (s / n) * n == s;
    if RatingsInRange(rs) {
      RatingSumBounds(rs);
      QuotientBounds(s, n);
    }
  }

  lemma QuotientBounds(s: real, n: real)
    requires n > 0.0 && n <= s <= 5.0 * n
    ensures 1.0 <= s / n <= 5.0
  {
    var q := s / n;
    assert q * n == s;
    assert (q - 1.0) * n == s - n;
    assert (5.0 - q) * n == 5.0 * n - s;
  }

  /** An unrated review leaves the mean unchanged: it is never counted as 0. */
  lemma UnratedDoesNotMoveMean(rs: seq<Review>, x: Review)
    requires x.rating.None?
    ensures MeanRating(rs + [x]) == MeanRating(rs)
  {
    assert (rs + [x])[..|rs|] == rs;
  }

  // ---------------------------------------------------------------------------
  // Most recent read date: `read_date.max()` over the ISO date strings.

  function LatestReadDate(rs: seq<Review>): (latest: Date)
    requires |rs| > 0
    ensures exists r :: r in rs && r.readDate == latest
    ensures forall r :: r in rs ==> DateLe(r.readDate, latest)
  {
    if |rs| == 1 then rs[0].readDate
    else
      var init := rs[..|rs| - 1];
      var d := LatestReadDate(init);
      var last := rs[|rs| - 1];
      assert forall r :: r in rs <==> r in init || r == last;
      if DateLe(d, last.readDate) then last.readDate else d
  }

  // ---------------------------------------------------------------------------
  // Monthly trend: `groupby(read_date.dt.to_period('M')).size()`, whose index
  // is sorted and holds only months that occur.

  datatype Month = Month(year: int, month: int)

  function MonthOf(d: Date): Month {
    Month(d.year, d.month)
  }

  predicate MonthLt(a: Month, b: Month) {
    a.year < b.year || (a.year == b.year && a.month < b.month)
  }

  /** Number of reviews read in month `m`. */
  function ReadIn(rs: seq<Review>, m: Month): (n: nat)
    ensures n <= |rs|
  {
    if |rs| == 0 then 0
    else ReadIn(rs[..|rs| - 1], m) + (if MonthOf(rs[|rs| - 1].readDate) == m then 1 else 0)
  }

  datatype Bucket = Bucket(month: Month, count: nat)

  ghost predicate Chronological(bs: seq<Bucket>) {
    forall i, j :: 0 <= i < j < |bs| ==> MonthLt(bs[i].month, bs[j].month)
  }

  ghost predicate NonEmptyBuckets(bs: seq<Bucket>) {
    forall i :: 0 <= i < |bs| ==> bs[i].count >= 1
  }

  /** The count the trend shows for month `m` (0 when `m` is absent). */
  function CountFor(bs: seq<Bucket>, m: Month): nat {
    if |bs| == 0 then 0
    else if bs[0].month == m then bs[0].count
    else CountFor(bs[1..], m)
  }

  function Total(bs: seq<Bucket>): nat {
    if |bs| == 0 then 0 else bs[0].count + Total(bs[1..])
  }

  lemma {:induction false} CountForAbsent(bs: seq<Bucket>, m: Month)
    requires forall i :: 0 <= i < |bs| ==> bs[i].month != m
    ensures CountFor(bs, m) == 0
  {
    if |bs| > 0 {
      CountForAbsent(bs[1..], m);
    }
  }

  /** Records one more review read in month `m`. */
  function AddReading(bs: seq<Bucket>, m: Month): (r: seq<Bucket>)
    requires Chronological(bs) && NonEmptyBuckets(bs)
    ensures Chronological(r) && NonEmptyBuckets(r)
    ensures forall x :: CountFor(r, x) == CountFor(bs, x) + (if x == m then 1 else 0)
    ensures Total(r) == Total(bs) + 1
    ensures |r| > 0 && r[0].month == (if |bs| > 0 && MonthLt(bs[0].month, m) then bs[0].month else m)
  {
    if |bs| == 0 then
      [Bucket(m, 1)]
    else if bs[0].month == m then
      var r := [Bucket(m, bs[0].count + 1)] + bs[1..];
      assert r[1..] == bs[1..];
      r
    else if MonthLt(m, bs[0].month) then
      var r := [Bucket(m, 1)] + bs;
      assert r[1..] == bs;
      CountForAbsent(bs, m);
      r
    else
      var tail := AddReading(bs[1..], m);
      var r := [bs[0]] + tail;
      assert r[1..] == tail;
      assert MonthLt(bs[0].month, tail[0].month);
      forall i | 1 <= i < |tail| ensures MonthLt(bs[0].month, tail[i].month) {
        assert MonthLt(tail[0].month, tail[i].month);
      }
      r
  }

  /** The monthly trend: one bucket per month in which something was read, in
      chronological order, each holding the number of reviews read that month. */
  function MonthlyTrend(rs: seq<Review>): (bs: seq<Bucket>)
    ensures Chronological(bs) && NonEmptyBuckets(bs)
    ensures forall m :: CountFor(bs, m) == ReadIn(rs, m)
    ensures Total(bs) == |rs|
  {
    if |rs| == 0 then []
    else AddReading(MonthlyTrend(rs[..|rs| - 1]), MonthOf(rs[|rs| - 1].readDate))
  }

  /** Some bucket of `bs` is for month `m`. */
  ghost predicate HasBucket(bs: seq<Bucket>, m: Month) {
    exists i :: 0 <= i < |bs| && bs[i].month == m
  }

  /** A month appears in the trend exactly when some review was read in it;
      there is no zero-filling of gaps. */
  lemma TrendHasOnlyReadMonths(rs: seq<Review>, m: Month)
    ensures HasBucket(MonthlyTrend(rs), m) <==> ReadIn(rs, m) > 0
  {
    var bs := MonthlyTrend(rs);
    if HasBucket(bs, m) {
      var i :| 0 <= i < |bs| && bs[i].month == m;
      CountForDistinct(bs, i);
    } else {
      CountForAbsent(bs, m);
    }
  }

  lemma {:induction false} CountForDistinct(bs: seq<Bucket>, i: int)
    requires Chronological(bs) && 0 <= i < |bs|
    ensures CountFor(bs, bs[i].month) == bs[i].count
  {
    if i > 0 {
      assert MonthLt(bs[0].month, bs[i].month);
      CountForDistinct(bs[1..], i - 1);
    }
  }

  /** The dashboard's "이번 달 독후감": reviews whose read date falls in the
      current month, which is that month's bucket in the trend. */
  function ThisMonthCount(rs: seq<Review>, today: Date): (n: nat)
    ensures n == CountFor(MonthlyTrend(rs), MonthOf(today))
    ensures n <= |rs|
  {
    ReadIn(rs, MonthOf(today))
  }
}

=== FILE: text.dfy ===
/**
  String helpers shared by the validator, the search filter, the keyword
  extractor and the report renderers. Strings are sequences of Unicode scalar
  values, as Python's `str` is a sequence of code points, so `len` is `|s|`.
 */
module Text {

  /** Python's `str.isspace` for one character: the set both `str.strip()` and
      `str.split()` (without arguments) treat as whitespace. */
  predicate IsSpace(c: char) {
    var n := c as int;
    || (9 <= n <= 13)           // \t \n \v \f \r
    || (28 <= n <= 32)          // file/group/record/unit separators, space
    || n == 0x85 || n == 0xA0 || n == 0x1680
    || (0x2000 <= n <= 0x200A)
    || n == 0x2028 || n == 0x2029 || n == 0x202F || n == 0x205F || n == 0x3000
  }

  predicate NoSpace(s: string) {
    forall k :: 0 <= k < |s| ==> !IsSpace(s[k])
  }

  // ---------------------------------------------------------------------------
  // str.strip()

  /** Number of leading whitespace characters. */
  function LeadingSpaces(s: string): (n: nat)
    ensures n <= |s|
    ensures forall k :: 0 <= k < n ==> IsSpace(s[k])
    ensures n < |s| ==> !IsSpace(s[n])
  {
    if |s| == 0 || !IsSpace(s[0]) then 0 else 1 + LeadingSpaces(s[1..])
  }

  /** Number of trailing whitespace characters. */
  function TrailingSpaces(s: string): (n: nat)
    ensures n <= |s|
    ensures forall k :: |s| - n <= k < |s| ==> IsSpace(s[k])
    ensures n < |s| ==> !IsSpace(s[|s| - n - 1])
  {
    if |s| == 0 || !IsSpace(s[|s| - 1]) then 0 else 1 + TrailingSpaces(s[..|s| - 1])
  }

  /** Python's `s.strip()`: `s` without its leading and trailing whitespace. */
  function Strip(s: string): (r: string)
    ensures |r| <= |s|
    ensures r == [] || (!IsSpace(r[0]) && !IsSpace(r[|r| - 1]))
  {
    var i := LeadingSpaces(s);
    if i == |s| then [] else s[i..|s| - TrailingSpaces(s[i..])]
  }

  /** What `strip` removes is whitespace, and what it keeps is the contiguous
      middle of `s`; an all-whitespace string strips to the empty string. */
  lemma StripKeepsMiddle(s: string)
    ensures exists i :: StrippedAt(s, Strip(s), i)
    ensures Strip(s) == [] <==> forall k :: 0 <= k < |s| ==> IsSpace(s[k])
  {
    var i := LeadingSpaces(s);
    if i == |s| {
      assert Strip(s) == [];
      assert StrippedAt(s, [], |s|);
    } else {
      var t := s[i..];
      var j := |s| - TrailingSpaces(t);
      assert TrailingSpaces(t) < |t| by {
        assert !IsSpace(t[0]);
      }
      forall k | j <= k < |s|
        ensures IsSpace(s[k])
      {
        assert s[k] == t[k - i];
      }
      assert Strip(s) == s[i..j];
      assert StrippedAt(s, s[i..j], i);
    }
  }

  /** Text with no whitespace at either end is left unchanged by `strip`. */
  lemma StripUnchanged(s: string)
    requires s == [] || (!IsSpace(s[0]) && !IsSpace(s[|s| - 1]))
    ensures Strip(s) == s
  {
    if s != [] {
      assert LeadingSpaces(s) == 0;
      assert s[0..] == s;
    }
  }

  /** `r` occurs in `s` at offset `i`, and everything around it is whitespace. */
  ghost predicate StrippedAt(s: string, r: string, i: int) {
    && 0 <= i && i + |r| <= |s| && s[i..i + |r|] == r
    && (forall k :: 0 <= k < i ==> IsSpace(s[k]))
    && (forall k :: i + |r| <= k < |s| ==> IsSpace(s[k]))
  }

  // ---------------------------------------------------------------------------
  // str.split()

  /** Length of the run of non-whitespace characters at the front of `s`. */
  function WordLength(s: string): (n: nat)
    ensures n <= |s|
    ensures forall k :: 0 <= k < n ==> !IsSpace(s[k])
    ensures n < |s| ==> IsSpace(s[n])
  {
    if |s| == 0 || IsSpace(s[0]) then 0 else 1 + WordLength(s[1..])
  }

  /** Python's `s.split()`: the maximal runs of non-whitespace characters, in order. */
  function Split(s: string): (r: seq<string>)
    ensures forall t :: t in r ==> |t| > 0 && NoSpace(t)
    decreases |s|
  {
    if |s| == 0 then []
    else if IsSpace(s[0]) then Split(s[1..])
    else
      var n := WordLength(s);
      [s[..n]] + Split(s[n..])
  }

  /** Python's `' '.join(words)`. */
  function JoinWords(words: seq<string>): string {
    if |words| == 0 then []
    else if |words| == 1 then words[0]
    else words[0] + " " + JoinWords(words[1..])
  }

  lemma {:induction false} SplitSkipsSpace(sp: string, s: string)
    requires forall k :: 0 <= k < |sp| ==> IsSpace(sp[k])
    ensures Split(sp + s) == Split(s)
    decreases |sp|
  {
    if |sp| > 0 {
      var whole := sp + s;
      assert whole[0] == sp[0] && IsSpace(sp[0]);
      assert whole[1..] == sp[1..] + s;
      SplitSkipsSpace(sp[1..], s);
      assert Split(whole) == Split(whole[1..]);
    } else {
      assert sp + s == s;
    }
  }

  lemma WordLengthOfWord(t: string, rest: string)
    requires NoSpace(t)
    requires rest == [] || IsSpace(rest[0])
    ensures WordLength(t + rest) == |t|
    decreases |t|
  {
    if |t| > 0 {
      assert (t + rest)[1..] == t[1..] + rest;
      WordLengthOfWord(t[1..], rest);
    }
  }

  /** Splitting the single-space join of well-formed words gives the words back:
      `split` is a left inverse of `' '.join` on whitespace-free, non-empty words. */
  lemma {:induction false} SplitJoinWords(words: seq<string>)
    requires forall t :: t in words ==> |t| > 0 && NoSpace(t)
    ensures Split(JoinWords(words)) == words
  {
    if |words| == 1 {
      var t := words[0];
      WordLengthOfWord(t, []);
      assert t + [] == t;
      assert t[..|t|] == t;
      assert t[|t|..] == [];
    } else if |words| > 1 {
      var t, rest := words[0], JoinWords(words[1..]);
      var s := t + " " + rest;
      assert s == t + (" " + rest);
      WordLengthOfWord(t, " " + rest);
      assert s[..|t|] == t;
      assert s[|t|..] == " " + rest;
      assert IsSpace(' ');
      SplitSkipsSpace(" ", rest);
      SplitJoinWords(words[1..]);
    }
  }

  /** `gaps[0] + words[0] + gaps[1] + ... + words[n - 1] + gaps[n]`. */
  function Interleave(gaps: seq<string>, words: seq<string>): string
    requires |gaps| == |words| + 1
  {
    if |words| == 0 then gaps[0]
    else gaps[0] + words[0] + Interleave(gaps[1..], words[1..])
  }

  predicate AllSpace(g: string) {
    forall k :: 0 <= k < |g| ==> IsSpace(g[k])
  }

  /** `words` are well-formed tokens and `gaps` are whitespace runs between
      them; only the runs at the two ends may be empty. */
  ghost predicate Separates(gaps: seq<string>, words: seq<string>) {
    && |gaps| == |words| + 1
    && (forall i :: 0 <= i < |gaps| ==> AllSpace(gaps[i]))
    && (forall i :: 0 < i < |words| ==> |gaps[i]| > 0)
    && (forall i :: 0 <= i < |words| ==> |words[i]| > 0 && NoSpace(words[i]))
  }

  /** `str.split()` exactly: `s` splits into `words` if and only if `s` is
      `words` with whitespace runs around and between them. */
  lemma SplitIffSeparates(s: string, words: seq<string>)
    ensures Split(s) == words <==> exists gaps :: Separates(gaps, words) && s == Interleave(gaps, words)
  {
    var own := GapsOf(s);
    if gaps :| Separates(gaps, words) && s == Interleave(gaps, words) {
      SplitInterleave(gaps, words);
    }
  }

  lemma {:induction false} SplitInterleave(gaps: seq<string>, words: seq<string>)
    requires Separates(gaps, words)
    ensures Split(Interleave(gaps, words)) == words
  {
    if |words| == 0 {
      SplitSkipsSpace(gaps[0], []);
      assert gaps[0] + [] == gaps[0];
    } else {
      var w, rest := words[0], Interleave(gaps[1..], words[1..]);
      var x := w + rest;
      assert Interleave(gaps, words) == gaps[0] + x;
      SplitSkipsSpace(gaps[0], x);
      assert rest == [] || IsSpace(rest[0]) by {
        if |words| > 1 {
          assert |gaps[1]| > 0 && rest[0] == gaps[1][0];
        } else if gaps[1] != [] {
          assert rest == gaps[1];
        }
      }
      WordLengthOfWord(w, rest);
      assert x[0] == w[0] && !IsSpace(w[0]);
      assert x[..|w|] == w && x[|w|..] == rest;
      assert Separates(gaps[1..], words[1..]) by {
        forall i | 0 < i < |words[1..]| ensures |gaps[1..][i]| > 0 {
          assert gaps[1..][i] == gaps[i + 1];
        }
      }
      SplitInterleave(gaps[1..], words[1..]);
    }
  }

  /** The whitespace runs of `s` around and between its words: every string
      is its own split with whitespace runs put back. */
  ghost function GapsOf(s: string): (gaps: seq<string>)
    ensures Separates(gaps, Split(s)) && s == Interleave(gaps, Split(s))
    decreases |s|
  {
    if |s| == 0 then
      assert Separates([[]], []);
      [[]]
    else if IsSpace(s[0]) then
      var gs := GapsOf(s[1..]);
      GapsAfterSpace(s, gs);
      [[s[0]] + gs[0]] + gs[1..]
    else
      var gs := GapsOf(s[WordLength(s)..]);
      GapsAfterWord(s, gs);
      [[]] + gs
  }

  lemma GapsAfterSpace(s: string, gs: seq<string>)
    requires |s| > 0 && IsSpace(s[0])
    requires Separates(gs, Split(s[1..])) && s[1..] == Interleave(gs, Split(s[1..]))
    ensures Separates([[s[0]] + gs[0]] + gs[1..], Split(s))
    ensures s == Interleave([[s[0]] + gs[0]] + gs[1..], Split(s))
  {
    SpaceFront(s[0], gs, Split(s[1..]));
    assert s == [s[0]] + s[1..];
  }

  lemma GapsAfterWord(s: string, gs: seq<string>)
    requires |s| > 0 && !IsSpace(s[0])
    requires Separates(gs, Split(s[WordLength(s)..]))
    requires s[WordLength(s)..] == Interleave(gs, Split(s[WordLength(s)..]))
    ensures Separates([[]] + gs, Split(s)) && s == Interleave([[]] + gs, Split(s))
  {
    var n := WordLength(s);
    FirstWordSplit(s);
    FirstWordEnds(s);
    FirstWordNoSpace(s);
    WordThenRest(s[..n], s[n..], gs, Split(s[n..]));
  }

  /** A text starting with a non-whitespace character splits into its first
      run and the split of what follows it. */
  lemma FirstWordSplit(s: string)
    requires |s| > 0 && !IsSpace(s[0])
    ensures var n := WordLength(s); Split(s) == [s[..n]] + Split(s[n..])
  {
  }

  /** The first run is not empty, and whitespace or the end follows it. */
  lemma FirstWordEnds(s: string)
    requires |s| > 0 && !IsSpace(s[0])
    ensures var n := WordLength(s); n > 0 && (s[n..] == [] || IsSpace(s[n..][0])) && s == s[..n] + s[n..]
  {
  }

  lemma FirstWordNoSpace(s: string)
    ensures NoSpace(s[..WordLength(s)])
  {
    var n := WordLength(s);
    forall k | 0 <= k < n ensures !IsSpace(s[..n][k]) {
      assert s[..n][k] == s[k];
    }
  }

  lemma WordThenRest(w: string, rest: string, gs: seq<string>, tail: seq<string>)
    requires |w| > 0 && NoSpace(w) && (rest == [] || IsSpace(rest[0]))
    requires Separates(gs, tail) && rest == Interleave(gs, tail)
    ensures Separates([[]] + gs, [w] + tail) && w + rest == Interleave([[]] + gs, [w] + tail)
  {
    LeadingGapNonEmpty(gs, tail);
    WordFrontSeparates(w, gs, tail);
    WordFrontInterleave(w, gs, tail);
  }

  /** One more whitespace character in front joins the leading run. */
  lemma SpaceFront(c: char, gaps: seq<string>, words: seq<string>)
    requires IsSpace(c) && Separates(gaps, words)
    ensures Separates([[c] + gaps[0]] + gaps[1..], words)
    ensures Interleave([[c] + gaps[0]] + gaps[1..], words) == [c] + Interleave(gaps, words)
  {
    var wider := [[c] + gaps[0]] + gaps[1..];
    assert wider[1..] == gaps[1..];
    forall k | 0 <= k < |wider[0]| ensures IsSpace(wider[0][k]) {
      if k > 0 { assert wider[0][k] == gaps[0][k - 1]; }
    }
    forall i | 0 < i < |wider| ensures wider[i] == gaps[i] { }
  }

  /** A word in front starts a new decomposition with an empty leading run. */
  lemma WordFrontSeparates(w: string, gaps: seq<string>, words: seq<string>)
    requires |w| > 0 && NoSpace(w) && Separates(gaps, words)
    requires |words| > 0 ==> |gaps[0]| > 0
    ensures Separates([[]] + gaps, [w] + words)
  {
    var gs, ws := [[]] + gaps, [w] + words;
    forall i | 0 < i < |gs| ensures gs[i] == gaps[i - 1] { }
    forall i | 0 < i < |ws| ensures ws[i] == words[i - 1] { }
  }

  lemma WordFrontInterleave(w: string, gaps: seq<string>, words: seq<string>)
    requires |gaps| == |words| + 1
    ensures Interleave([[]] + gaps, [w] + words) == w + Interleave(gaps, words)
  {
    var gs, ws := [[]] + gaps, [w] + words;
    assert gs[0] == [] && ws[0] == w && gs[1..] == gaps && ws[1..] == words;
    assert Interleave(gs, ws) == gs[0] + ws[0] + Interleave(gs[1..], ws[1..]);
    assert [] + w == w;
  }

  /** A decomposition of text that starts with whitespace, or is empty, has a
      non-empty leading run whenever it has a word. */
  lemma LeadingGapNonEmpty(gaps: seq<string>, words: seq<string>)
    requires Separates(gaps, words)
    requires Interleave(gaps, words) == [] || IsSpace(Interleave(gaps, words)[0])
    ensures |words| > 0 ==> |gaps[0]| > 0
  {
  }

  // ---------------------------------------------------------------------------
  // Substrings and case folding

  /** Python's `w in s` for strings: `w` occurs contiguously in `s`. */
  predicate Contains(s: string, w: string)
    decreases |s|
  {
    w <= s || (|s| > 0 && Contains(s[1..], w))
  }

  lemma ContainsIffOccurs(s: string, w: string)
    ensures Contains(s, w) <==> exists i :: OccursAt(s, w, i)
  {
    if Contains(s, w) {
      ContainsOccurs(s, w);
    }
    forall i | OccursAt(s, w, i) ensures Contains(s, w) {
      OccursContains(s, w, i);
    }
  }

  lemma {:induction false} ContainsOccurs(s: string, w: string)
    requires Contains(s, w)
    ensures exists i :: OccursAt(s, w, i)
    decreases |s|
  {
    if w <= s {
      assert OccursAt(s, w, 0);
    } else {
      ContainsOccurs(s[1..], w);
      var i :| OccursAt(s[1..], w, i);
      assert s[1..][i..i + |w|] == s[i + 1..i + 1 + |w|];
      assert OccursAt(s, w, i + 1);
    }
  }

  lemma {:induction false} OccursContains(s: string, w: string, i: int)
    requires OccursAt(s, w, i)
    ensures Contains(s, w)
    decreases i
  {
    if i == 0 {
      assert w <= s;
    } else {
      assert s[1..][i - 1..i - 1 + |w|] == s[i..i + |w|];
      OccursContains(s[1..], w, i - 1);
    }
  }

  ghost predicate OccursAt(s: string, w: string, i: int) {
    0 <= i && i + |w| <= |s| && s[i..i + |w|] == w
  }

  /** ASCII-only lower-casing, as SQLite's `LIKE` folds case only for ASCII letters. */
  function AsciiLower(s: string): (r: string)
    ensures |r| == |s|
    ensures forall k :: 0 <= k < |s| ==>
      r[k] == (if 'A' <= s[k] <= 'Z' then (s[k] as int + 32) as char else s[k])
  {
    seq(|s|, k requires 0 <= k < |s| =>
      if 'A' <= s[k] <= 'Z' then (s[k] as int + 32) as char else s[k])
  }

  // ---------------------------------------------------------------------------
  // Ordering: Python `str` comparison and SQLite's BINARY collation both order
  // strings lexicographically by code point (UTF-8 byte order agrees with it).

  predicate StrLe(a: string, b: string)
    decreases |a|
  {
    |a| == 0 || (|b| > 0 && (a[0] < b[0] || (a[0] == b[0] && StrLe(a[1..], b[1..]))))
  }

  lemma {:induction false} StrLeTotal(a: string, b: string)
    ensures StrLe(a, b) || StrLe(b, a)
    decreases |a|
  {
    if |a| > 0 && |b| > 0 && a[0] == b[0] {
      StrLeTotal(a[1..], b[1..]);
    }
  }

  lemma {:induction false} StrLeTransitive(a: string, b: string, c: string)
    requires StrLe(a, b) && StrLe(b, c)
    ensures StrLe(a, c)
    decreases |a|
  {
    if |a| > 0 && a[0] == b[0] && b[0] == c[0] {
      StrLeTransitive(a[1..], b[1..], c[1..]);
    }
  }

  lemma {:induction false} StrLeAntisymmetric(a: string, b: string)
    requires StrLe(a, b) && StrLe(b, a)
    ensures a == b
    decreases |a|
  {
    if |a| > 0 {
      StrLeAntisymmetric(a[1..], b[1..]);
      assert a == [a[0]] + a[1..];
      assert b == [b[0]] + b[1..];
    }
  }

  // ---------------------------------------------------------------------------
  // Truncation for display and export

  /** The idiom `s[:k] + '...' if len(s) > k else s`: cut at `k` characters,
      marking the cut with an ellipsis; short text is left alone. */
  function Truncate(s: string, k: nat): (r: string)
    ensures |s| <= k ==> r == s
    ensures |s| > k ==> |r| == k + 3 && r[..k] == s[..k] && r[k..] == "..."
    ensures |r| <= k + 3 && |r| <= |s| + 3
  {
    if |s| > k then s[..k] + "..." else s
  }

  /** The narrative report's `content[:200]...`: the ellipsis is appended whatever
      the length, so short content is shown complete and still followed by it. */
  function Preview(s: string): (r: string)
    ensures |r| == (if |s| < 200 then |s| else 200) + 3
    ensures |s| <= 200 ==> r == s + "..."
    ensures |s| > 200 ==> r[..200] == s[..200]
    ensures r[|r| - 3..] == "..."
  {
    s[..if |s| < 200 then |s| else 200] + "..."
  }

  /** The two truncation rules agree exactly on content longer than 200
      characters; on shorter content the preview alone adds an ellipsis. */
  lemma PreviewVersusTruncate(s: string)
    ensures |s| > 200 ==> Preview(s) == Truncate(s, 200)
    ensures |s| <= 200 ==> Preview(s) != Truncate(s, 200) && Truncate(s, 200) == s
  {
    if |s| <= 200 {
      assert |Preview(s)| == |s| + 3;
    }
  }
}

=== FILE: validation.dfy ===
/**
  The book-review form validator (`validate_book_review`). Every field is
  checked independently and each failing field contributes one message, in
  field order, so the form can show every problem at once.
 */
module Validation {
  import opened Wrappers
  import opened Records
  import opened Text

  datatype Violation =
    | TitleLength      // 제목은 2-100자 사이여야 합니다.
    | AuthorLength     // 저자는 2-50자 사이여야 합니다.
    | DateMissing      // 읽은 날짜를 선택해주세요.
    | DateInFuture     // 읽은 날짜는 미래일 수 없습니다.
    | GenreMissing     // 장르를 선택해주세요.
    | ContentLength    // 독후감 본문은 50-5000자 사이여야 합니다.
  {
    /** The message the form shows for this violation. */
    function Message(): string {
      match this
      case TitleLength => "제목은 2-100자 사이여야 합니다."
      case AuthorLength => "저자는 2-50자 사이여야 합니다."
      case DateMissing => "읽은 날짜를 선택해주세요."
      case DateInFuture => "읽은 날짜는 미래일 수 없습니다."
      case GenreMissing => "장르를 선택해주세요."
      case ContentLength => "독후감 본문은 50-5000자 사이여야 합니다."
    }

    /** The position of the field this violation is about, in form order;
        both date violations concern the third field. */
    function Field(): nat {
      match this
      case TitleLength => 0
      case AuthorLength => 1
      case DateMissing => 2
      case DateInFuture => 2
      case GenreMissing => 3
      case ContentLength => 4
    }
  }

  /** A length rule as the source writes it: the minimum is checked on the
      stripped text, the maximum on the raw text, and empty text fails. */
  predicate LengthOk(s: string, min: nat, max: nat) {
    s != [] && |Strip(s)| >= min && |s| <= max
  }

  /** The candidate as the form submits it: the date picker and the genre
      select box may be unset; a genre id of 0 is as falsy as no genre. */
  datatype Candidate = Candidate(
    title: string,
    author: string,
    readDate: Option<Date>,
    genreId: Option<int>,
    content: string)

  predicate TitleOk(c: Candidate) { LengthOk(c.title, 2, 100) }
  predicate AuthorOk(c: Candidate) { LengthOk(c.author, 2, 50) }
  predicate DateOk(c: Candidate, today: Date) { c.readDate.Some? && DateLe(c.readDate.value, today) }
  predicate GenreOk(c: Candidate) { c.genreId.Some? && c.genreId.value != 0 }
  predicate ContentOk(c: Candidate) { LengthOk(c.content, 50, 5000) }

  /** All five field rules at once: the candidate may be stored. */
  predicate Acceptable(c: Candidate, today: Date) {
    TitleOk(c) && AuthorOk(c) && DateOk(c, today) && GenreOk(c) && ContentOk(c)
  }

  /** How many of the five fields break their rule. */
  function FailingFields(c: Candidate, today: Date): nat {
    (if TitleOk(c) then 0 else 1) + (if AuthorOk(c) then 0 else 1)
      + (if DateOk(c, today) then 0 else 1) + (if GenreOk(c) then 0 else 1)
      + (if ContentOk(c) then 0 else 1)
  }

  function Check(bad: bool, v: Violation): Option<Violation> {
    if bad then Some(v) else None
  }

  /** The messages of the failing checks, in check order. */
  function Collect(checks: seq<Option<Violation>>): seq<Violation> {
    if |checks| == 0 then []
    else
      match checks[0]
      case Some(v) => [v] + Collect(checks[1..])
      case None => Collect(checks[1..])
  }

  /** How many checks failed. */
  function Failed(checks: seq<Option<Violation>>): nat {
    if |checks| == 0 then 0 else (if checks[0].Some? then 1 else 0) + Failed(checks[1..])
  }

  lemma {:induction false} CollectKeepsFailures(checks: seq<Option<Violation>>)
    ensures forall v :: v in Collect(checks) <==> Some(v) in checks
    ensures Collect(checks) == [] <==> forall o :: o in checks ==> o.None?
    ensures |Collect(checks)| == Failed(checks)
  {
    if |checks| > 0 {
      CollectKeepsFailures(checks[1..]);
      assert forall o :: o in checks <==> o == checks[0] || o in checks[1..];
    }
  }

  /** Messages in strictly increasing field order: form order, and at most
      one message per field. */
  predicate InFieldOrder(errors: seq<Violation>) {
    forall i, j :: 0 <= i < j < |errors| ==> errors[i].Field() < errors[j].Field()
  }

  /** Each check at position `k` concerns field `offset + k`. */
  ghost predicate ChecksFieldsFrom(checks: seq<Option<Violation>>, offset: nat) {
    forall k :: 0 <= k < |checks| && checks[k].Some? ==> checks[k].value.Field() == offset + k
  }

  lemma {:induction false} CollectInFieldOrder(checks: seq<Option<Violation>>, offset: nat)
    requires ChecksFieldsFrom(checks, offset)
    ensures InFieldOrder(Collect(checks))
    ensures forall v :: v in Collect(checks) ==> v.Field() >= offset
  {
    if |checks| > 0 {
      assert ChecksFieldsFrom(checks[1..], offset + 1) by {
        forall k | 0 <= k < |checks[1..]| && checks[1..][k].Some?
          ensures checks[1..][k].value.Field() == offset + 1 + k
        {
          assert checks[1..][k] == checks[k + 1];
        }
      }
      CollectInFieldOrder(checks[1..], offset + 1);
    }
  }

  /** The five checks of `validate_book_review` in order, given the outcome of
      each field rule; the date check distinguishes a missing date. */
  function Checks(titleOk: bool, authorOk: bool, readDate: Option<Date>, today: Date,
                  genreOk: bool, contentOk: bool): (checks: seq<Option<Violation>>)
    ensures forall v :: Some(v) in checks <==>
      || (v == TitleLength && !titleOk)
      || (v == AuthorLength && !authorOk)
      || (v == DateMissing && readDate.None?)
      || (v == DateInFuture && readDate.Some? && !DateLe(readDate.value, today))
      || (v == GenreMissing && !genreOk)
      || (v == ContentLength && !contentOk)
    ensures ChecksFieldsFrom(checks, 0)
  {
    [ Check(!titleOk, TitleLength),
      Check(!authorOk, AuthorLength),
      if readDate.None? then Some(DateMissing)
      else Check(!DateLe(readDate.value, today), DateInFuture),
      Check(!genreOk, GenreMissing),
      Check(!contentOk, ContentLength) ]
  }

  /** The collected messages of the five checks, stated over the outcome of
      each field rule. */
  lemma CollectedChecks(titleOk: bool, authorOk: bool, readDate: Option<Date>, today: Date,
                        genreOk: bool, contentOk: bool)
    ensures var errors := Collect(Checks(titleOk, authorOk, readDate, today, genreOk, contentOk));
      && (errors == [] <==> titleOk && authorOk && readDate.Some? && DateLe(readDate.value, today) && genreOk && contentOk)
      && (TitleLength in errors <==> !titleOk)
      && (AuthorLength in errors <==> !authorOk)
      && (DateMissing in errors <==> readDate.None?)
      && (DateInFuture in errors <==> readDate.Some? && !DateLe(readDate.value, today))
      && (GenreMissing in errors <==> !genreOk)
      && (ContentLength in errors <==> !contentOk)
      && InFieldOrder(errors)
  {
    var checks := Checks(titleOk, authorOk, readDate, today, genreOk, contentOk);
    CollectKeepsFailures(checks);
    CollectInFieldOrder(checks, 0);
  }

  /** `validate_book_review`, with "today" passed in instead of read from the clock. */
  function Validate(c: Candidate, today: Date): (errors: seq<Violation>)
    ensures errors == [] <==> Acceptable(c, today)
    ensures TitleLength in errors <==> !TitleOk(c)
    ensures AuthorLength in errors <==> !AuthorOk(c)
    ensures DateMissing in errors <==> c.readDate.None?
    ensures DateInFuture in errors <==> c.readDate.Some? && !DateLe(c.readDate.value, today)
    ensures GenreMissing in errors <==> !GenreOk(c)
    ensures ContentLength in errors <==> !ContentOk(c)
    ensures InFieldOrder(errors)
  {
    CollectedChecks(TitleOk(c), AuthorOk(c), c.readDate, today, GenreOk(c), ContentOk(c));
    Collect(Checks(TitleOk(c), AuthorOk(c), c.readDate, today, GenreOk(c), ContentOk(c)))
  }

  /** The date rule reports at most one problem: a missing date is never also
      reported as a future date. */
  lemma DateReportedOnce(c: Candidate, today: Date)
    ensures !(DateMissing in Validate(c, today) && DateInFuture in Validate(c, today))
    ensures DateOk(c, today) <==> DateMissing !in Validate(c, today) && DateInFuture !in Validate(c, today)
  {
  }

  /** One message per failing field: the number of messages is the number of
      fields that break their rule. */
  lemma ViolationCount(c: Candidate, today: Date)
    ensures |Validate(c, today)| == FailingFields(c, today)
  {
    var checks := Checks(TitleOk(c), AuthorOk(c), c.readDate, today, GenreOk(c), ContentOk(c));
    CollectKeepsFailures(checks);
    assert Failed(checks[4..]) == (if ContentOk(c) then 0 else 1);
    assert Failed(checks[3..]) == (if GenreOk(c) then 0 else 1) + Failed(checks[4..]);
    assert Failed(checks[2..]) == (if DateOk(c, today) then 0 else 1) + Failed(checks[3..]);
    assert Failed(checks[1..]) == (if AuthorOk(c) then 0 else 1) + Failed(checks[2..]);
  }

  /** A one-character title and 40 characters of content fail together:
      exactly those two messages, in field order, whatever else is valid. */
  lemma TwoViolationsReportedTogether(c: Candidate, today: Date)
    requires |c.title| == 1 && |c.content| == 40
    requires AuthorOk(c) && DateOk(c, today) && GenreOk(c)
    ensures Validate(c, today) == [TitleLength, ContentLength]
  {
    var checks := Checks(TitleOk(c), AuthorOk(c), c.readDate, today, GenreOk(c), ContentOk(c));
    assert |checks| == 5;
    assert checks[0] == Some(TitleLength) && checks[4] == Some(ContentLength);
    assert checks[1] == None && checks[2] == None && checks[3] == None;
    assert Collect(checks[4..]) == [ContentLength];
    assert checks[3..][1..] == checks[4..];
    assert Collect(checks[3..]) == [ContentLength];
    assert checks[2..][1..] == checks[3..];
    assert Collect(checks[2..]) == [ContentLength];
    assert checks[1..][1..] == checks[2..];
    assert Collect(checks[1..]) == [ContentLength];
  }
}

=== FILE: wrappers.dfy ===
/** Optional values: a SQL NULL, a Python None, an unset filter criterion. */
module Wrappers {

  datatype Option<+T> = None | Some(value: T) {

    /** The value held by `Some`; `None` falls back to `default` (a NULL rating read as 0). */
    function GetOr(default: T): T {
      match this
      case Some(v) => v
      case None => default
    }
  }
}
